=== FILE: README.md ===
# Rune: a verified model of the blog demo's core

Rune is a local, React-only blogging demo: visitors browse post cards, search
them, open a post, clap for it and comment on it, and signed-in users write
new posts in a rich-text editor. Everything lives in memory inside the `App`
component of `src/App.jsx`. This project models the pure layer under that UI
in Dafny and proves properties of it:

- the text helpers `stripHtml` and `estimateReadTime`;
- the content store: the post list, the comment lists keyed by post id, and
  the updates `addPost`, `addComment` and `toggleClap`;
- the search memo `filtered`;
- the publish handler of the editor and the "Post Comment" handler;
- the `{page, params}` view descriptor, post lookup and the "not found" case.

Modules, one per file:

| file | module | what it holds |
|---|---|---|
| `options.dfy` | `Options` | `Option`, the model's `undefined` |
| `strings.dfy` | `Strings` | the `\s` whitespace set; `trim`; ASCII `toLowerCase`; `includes` |
| `decimal.dfy` | `Decimal` | decimal numerals, as the id templates `p${n}` / `c${n}` print them |
| `html.dfy` | `Html` | `stripHtml` as its four passes, and their shape lemmas |
| `readtime.dfy` | `ReadTime` | `split(' ')`, the word count and `estimateReadTime` |
| `store.dfy` | `Store` | `Post`, `Comment`, lookup, `addPost`, `addComment`, `toggleClap`, search |
| `app.dfy` | `App` | users, views, the form handlers, the session as a state machine and its invariant |

Modelling choices:

- The regular-expression replacements of `stripHtml` become left-to-right
  scans with the same leftmost, non-overlapping matching. A `<` is a tag
  only if a `>` follows it somewhere; otherwise it stays literal.
- `\s` is the ECMAScript WhiteSpace and LineTerminator set. `trim` removes
  the same set.
- `toLowerCase` is ASCII-only lower-casing.
- Timestamps (`new Date()`) are an opaque `int`, passed in as `now`.
- An absent title, content or comment list is the empty string or list.
- The session is a `State` of the five `useState` slots (`view`, `posts`,
  `commentsByPost`, the auth user, `search`). `Step` is one user action.
  Each action checks the same guards the page checks: cards exist only on
  the home page, and the clap button and comment form only on a post that
  was found.
- The session invariant `Inv` has a structural part `InvCore` (sequential
  post ids, duplicate-free claps, well-formed comment lists and views) and
  `ReadTimesCurrent`: every stored `estimatedReadTime` is the estimate for
  its post's content.
- The seed post's content is written as `<p>`, its twelve words joined by
  single spaces, and `</p>`, which is the string at src/App.jsx:50.

## Model

| member | source | states |
|---|---|---|
| Strings.Trim | src/App.jsx:91 | `trim` leaves no whitespace at either end and never lengthens the text |
| Strings.TrimIsSlice | src/App.jsx:91 | the trimmed text is a slice of the input with only whitespace outside it |
| Strings.TrimEmptyIffAllSpace | src/App.jsx:341 | `!x.trim()` holds exactly when `x` is all whitespace |
| Strings.TrimOfTrimmed | src/App.jsx:91 | trimming text with no whitespace at its ends changes nothing |
| Strings.LowerStr | src/App.jsx:146-147 | lower-casing keeps the length, turns each ASCII capital into its small letter, leaves every other character as it is, and leaves no capital behind |
| Strings.LowerStrIdempotent | src/App.jsx:146-147 | lower-casing twice is lower-casing once |
| Strings.ContainsIffOccurs | src/App.jsx:147 | `includes` holds exactly when the word occurs at some index |
| Strings.ContainsOfSlice | src/App.jsx:147 | whatever a slice contains, the whole text contains |
| Decimal.NatToString | src/App.jsx:151 | the number printed in an id is digits only, with no leading zero |
| Decimal.ParseNatToString | src/App.jsx:151 | reading the printed numeral gives back the number |
| Decimal.NatToStringInjective | src/App.jsx:151 | different numbers print differently |
| Html.IndexOf | src/App.jsx:91 | the index where a tag ends is the first `>` |
| Html.ReplaceTags | src/App.jsx:91 | the tag pass never lengthens the text, and text without `<` passes through unchanged; what it does to each tag is stated by `Html.ReplaceTagsTag` |
| Html.ReplaceTagsTag | src/App.jsx:91 | each complete tag `<x>` (`[^>]*` cannot pass a `>`, so the tag ends at the first one) becomes exactly one space, the `<`-free text before it is kept, and the pass carries on with the text after it |
| Html.IndexOfIsFirst | src/App.jsx:91 | the end of a tag is found at the first `>` and at no other index |
| Html.ReplaceTagsShape | src/App.jsx:91 | after the tag pass no complete tag is left, and only spaces were added |
| Html.ReplaceTagsOfTagFree | src/App.jsx:91 | the tag pass leaves text without tags unchanged |
| Html.ReplaceNbsp | src/App.jsx:91 | the `&nbsp;` pass never lengthens the text, and text without `&` passes through unchanged; what it does to each entity is stated by `Html.ReplaceNbspEntity` |
| Html.ReplaceNbspEntity | src/App.jsx:91 | each `&nbsp;` becomes exactly one space, the `&`-free text before it is kept, and the pass carries on with the text after it |
| Html.ReplaceNbspShape | src/App.jsx:91 | the `&nbsp;` pass adds only spaces and keeps text tag-free |
| Html.ReplaceNbspLeavesNone | src/App.jsx:91 | no `&nbsp;` survives the `&nbsp;` pass, including ones that two replacements would glue together |
| Html.ReplaceNbspOfClean | src/App.jsx:91 | text without `&nbsp;` passes through unchanged |
| Html.Collapse | src/App.jsx:91 | the whitespace pass never lengthens the text, and it gives the empty string only for the empty string |
| Html.CollapseShape | src/App.jsx:91 | after collapsing, whitespace occurs only as single plain spaces; tag-freedom is kept |
| Html.CollapseHead | src/App.jsx:91 | the collapse keeps the first character, turning it into a space if it is whitespace |
| Html.CollapseOnlySpaces | src/App.jsx:91 | the collapse introduces no character but the space |
| Html.CollapseSingleSpaced | src/App.jsx:91 | after the collapse no two whitespace characters are adjacent, and every whitespace character is a plain space |
| Html.CollapseKeepsTagFree | src/App.jsx:91 | the collapse cannot create a tag |
| Html.CollapseAddsNoWord | src/App.jsx:91 | collapsing creates no new occurrence of a whitespace-free word, such as `&nbsp;` |
| Html.CollapseOfSingleSpaced | src/App.jsx:91 | single-spaced text passes through the collapse unchanged |
| Html.TrimKeepsShape | src/App.jsx:91 | trimming keeps text single-spaced and tag-free and adds no word |
| Html.TrimKeepsSingleSpaced | src/App.jsx:91 | trimming keeps text single-spaced |
| Html.TrimKeepsTagFree | src/App.jsx:91 | trimming keeps text tag-free |
| Html.TrimAddsNoWord | src/App.jsx:91 | whatever the trimmed text contains, the untrimmed text contains |
| Html.TagFreeSlice | src/App.jsx:91 | a slice of tag-free text is tag-free |
| Html.SingleSpacedSlice | src/App.jsx:91 | a slice of single-spaced text is single-spaced |
| Html.StripHtml | src/App.jsx:89-92 | the empty fragment gives `''`; every result is trimmed and no longer than the fragment |
| Html.StripHtmlShape | src/App.jsx:89-92 | the empty input gives `''`; every result is trimmed and single-spaced, and holds no tag and no `&nbsp;` |
| Html.StripHtmlOfNormalized | src/App.jsx:89-92 | text that already has that shape is returned unchanged |
| Html.StripHtmlIdempotent | src/App.jsx:89-92 | stripping twice is stripping once |
| Html.Words | src/App.jsx:91 | the words of a text, its maximal runs without whitespace: each is non-empty and free of whitespace, and text that opens with a visible character opens its first word with it |
| Html.WordsTrimStart | src/App.jsx:91 | dropping leading whitespace keeps the words |
| Html.WordsSpaceSuffix | src/App.jsx:91 | trailing whitespace adds no word |
| Html.WordsTrim | src/App.jsx:91 | `trim` keeps every word, in order |
| Html.CollapseKeepsWords | src/App.jsx:91 | collapsing whitespace runs keeps every word, in order |
| Html.StripHtmlKeepsWords | src/App.jsx:89-92 | the stripped text has exactly the words of the fragment once tags and `&nbsp;` are replaced by spaces: the last two passes lose and add none |
| Html.ReplaceTagsPlainPrefix | src/App.jsx:91 | text without `<` is copied by the tag pass |
| Html.ReplaceNbspPlainPrefix | src/App.jsx:91 | text without `&` is copied by the `&nbsp;` pass |
| Html.ParagraphTags | src/App.jsx:91 | `<p>w</p>` with no `<` inside `w` becomes ` w ` |
| Html.StripHtmlNbspParagraph | src/App.jsx:89-92 | `<p>a&nbsp;b</p>` strips to `a b` for any two visible characters |
| Html.StripHtmlExample | src/App.jsx:89-92 | `<p>A&nbsp;B</p>` strips to `A B` |
| ReadTime.Split | src/App.jsx:95 | `split(' ')` yields at least one piece, and no piece holds a space |
| ReadTime.JoinSplit | src/App.jsx:95 | joining the pieces of a split with spaces restores the text |
| ReadTime.SplitJoin | src/App.jsx:95 | splitting a join of space-free pieces restores the pieces |
| ReadTime.SplitJoinFirstChar | src/App.jsx:95 | a first piece that starts with a visible character passes that character into the first piece of the split |
| ReadTime.CountNonEmpty | src/App.jsx:95 | `filter(Boolean).length` is the number of pieces less the number of empty ones |
| ReadTime.WordCount | src/App.jsx:94-95 | the count is at most the length of the text, and 0 exactly when the text is all spaces |
| ReadTime.SplitCountBounds | src/App.jsx:95 | `split(' ')` has at most one non-empty piece per character, and none exactly when the text is all spaces |
| ReadTime.SplitCountsWords | src/App.jsx:95 | on text whose only whitespace is the plain space, the non-empty pieces of `split(' ')` are exactly as many as its words |
| ReadTime.ReadTimeCountsWords | src/App.jsx:93-97 | the count is the number of words of the fragment once tags and `&nbsp;` become spaces, and the read time is the minutes for that many words |
| ReadTime.ReadMinutes | src/App.jsx:96 | at least 1, and the least number of minutes covering the words at 200 per minute |
| ReadTime.EstimateReadTime | src/App.jsx:93-97 | at least one minute, and exactly the rounded-up reading time of the words of the stripped text |
| ReadTime.WordCountOfPlain | src/App.jsx:95 | text of `n` plain words separated by single spaces counts `n` words |
| ReadTime.StripHtmlOfParagraph | src/App.jsx:89-92 | a `<p>` paragraph of plain words strips to those words |
| ReadTime.ReadTimeOfParagraph | src/App.jsx:93-97 | a paragraph of `n` plain words takes `max(1, ceil(n/200))` minutes |
| ReadTime.ReadTimeOfEmpty | src/App.jsx:93-97 | empty content takes 1 minute |
| ReadTime.ReadTimeOfThreeWords | src/App.jsx:93-97 | `<p>one two three</p>` has 3 words and takes 1 minute |
| ReadTime.ThreeWords | src/App.jsx:93-97 | the words `one`, `two`, `three` are plain and join to `one two three` |
| ReadTime.ReadTimeOf250Words | src/App.jsx:93-97 | a paragraph of 250 words takes 2 minutes |
| Store.SerialIdRoundTrip | src/App.jsx:151 | an id `p<n>` / `c<n>` starts with its letter, and its number can be read back |
| Store.SerialIdInjective | src/App.jsx:156 | distinct sequence numbers give distinct ids |
| Store.FindPost | src/App.jsx:179 | `find` gives nothing exactly when no post has the id; otherwise it gives the first post with it |
| Store.FindPostUnique | src/App.jsx:179 | when ids are distinct, lookup finds the one post with the id |
| Store.SequentialIdsDistinct | src/App.jsx:150-152 | ids handed out by `addPost` are pairwise distinct |
| Store.AddPost | src/App.jsx:150-152 | one more post; the head is the draft, stamped `p<n+1>`, with all its other fields; the tail is exactly the old list |
| Store.AddPostKeepsSequentialIds | src/App.jsx:150-152 | the newest post is `p<length>` and the oldest `p1`, before and after `addPost` |
| Store.AddPostLookup | src/App.jsx:150-152 | after `addPost` the new id finds the new post and every other id finds what it found before; with sequential ids the new id was unused |
| Store.ThreadBelongsToPost | src/App.jsx:183 | under well-formed comment lists, the thread `commentsByPost[id] \|\| []` holds only comments on post `id`, numbered `c1, c2, …`, and only an existing post has a non-empty thread |
| Store.AddComment | src/App.jsx:153-158 | appends to the post's list (a missing list counts as empty) with id `c<position>`; the earlier comments and every other list are unchanged |
| Store.WellFormedListDistinct | src/App.jsx:156 | comment ids within one post's list are distinct |
| Store.AddCommentKeepsWellFormed | src/App.jsx:153-158 | filing a comment for an existing post keeps every list numbered `c1, c2, …` and filed under its post |
| Store.AppendKeepsWellFormed | src/App.jsx:156 | appending a comment numbered after its position keeps a list numbered `c1, c2, …` |
| Store.AddPostKeepsCommentsWellFormed | src/App.jsx:150-152 | adding a post leaves every comment list pointing at an existing post |
| Store.RemoveAll | src/App.jsx:163 | the filter drops every occurrence of the uid and keeps every other uid as often as before |
| Store.RemoveAllAbsent | src/App.jsx:163 | filtering out an absent uid changes nothing |
| Store.RemoveAllKeepsNoDup | src/App.jsx:163 | the filter keeps a duplicate-free list duplicate-free |
| Store.RemoveAllSplit | src/App.jsx:163 | filtering a concatenation filters each part |
| Store.RemoveAllFromAppend | src/App.jsx:163 | filtering out a uid just appended to a list without it gives back the list |
| Store.ToggleClaps | src/App.jsx:161-163 | the uid's membership flips, and no other uid's claps change |
| Store.ToggleClapsKeepsNoDup | src/App.jsx:161-163 | toggling keeps claps duplicate-free and moves the count by exactly one |
| Store.NoDupCount | src/App.jsx:161-163 | in duplicate-free claps every uid occurs at most once |
| Store.ToggleClapsTwice | src/App.jsx:161-163 | toggling twice restores the claps as a collection, and as the same list when the uid had not clapped |
| Store.ToggleClap | src/App.jsx:159-165 | same length and order; only claps change; posts with other ids are untouched; on the post, the uid's membership flips and other uids stay |
| Store.ToggleClapKeepsNoDup | src/App.jsx:159-165 | no post ever holds a duplicate clap |
| Store.AddPostKeepsReadTimes | src/App.jsx:150-152 | `addPost` keeps every stored read time equal to the estimate for its content when the draft's is |
| Store.ToggleClapKeepsReadTimes | src/App.jsx:159-165 | clapping keeps every stored read time equal to the estimate for its content |
| Store.ToggleClapTwice | src/App.jsx:159-165 | toggling twice restores every post, with the uid at most moved within its claps |
| Store.FilterMatching | src/App.jsx:147 | the kept posts form an order-preserving subsequence of the posts |
| Store.Matches | src/App.jsx:147 | the empty query matches every post |
| Store.MatchesIgnoresCase | src/App.jsx:146-147 | a query matches exactly the posts its lower-cased form matches |
| Store.FilterMatchingKeeps | src/App.jsx:147 | a post is kept exactly when its lower-cased title or lower-cased stripped content contains the lower-cased query, and then as often as it occurs in the list |
| Store.Search | src/App.jsx:144-148 | an empty query lists every post; otherwise an order-preserving subsequence holding exactly the matching posts, each as often as in the list |
| Store.SearchShortcutAgrees | src/App.jsx:145-147 | the shortcut for the empty query agrees with what the filter would return |
| Store.SearchIgnoresCase | src/App.jsx:146-147 | non-empty queries that lower-case alike find the same posts |
| Store.SearchCaseInsensitive | src/App.jsx:146-147 | a non-empty query finds the same posts as its lower-cased form |
| Store.SearchListsHeldPosts | src/App.jsx:144-148 | every listed post carries the id of a post in the list |
| Store.SearchResultsResolve | src/App.jsx:144-148 | with distinct ids, every listed post is found again by its id |
| App.WelcomeWordsPlain | src/App.jsx:50 | the seed paragraph is twelve plain words |
| App.WelcomeReadTime | src/App.jsx:50-55 | the read time 1 written into the seed post is the estimate for its content |
| App.Init | src/App.jsx:137-142 | the session starts on the home page, signed out, with an empty query, and satisfies the invariant, read times included |
| App.SeedShape | src/App.jsx:46-64 | the seed post `p1` and comment `c1` give sequential ids, duplicate-free claps, well-formed comment lists and a well-formed home view |
| App.CurrentPost | src/App.jsx:179 | a post is shown exactly when the view is a post view whose id some post carries, and the post shown is one in the list with that id |
| App.Render | src/App.jsx:173-189 | home lists the search results and the editor shows for `createPost`. For `postDetail`, "not found" appears exactly when the id is missing or unknown; otherwise the post with that id shows with its comment list |
| App.OrElse | src/App.jsx:322 | `a \|\| b` on strings: `a` unless it is empty, then `b` |
| App.BlankFields | src/App.jsx:341 | `!title.trim()` means an all-whitespace title; the second `trim` of the stripped content changes nothing |
| App.PublishDraft | src/App.jsx:339-354 | no user is handled first; a blank title or empty stripped content is refused. Otherwise the draft carries the trimmed, non-empty title, the content and the author (or `Anonymous`), plus the estimated read time (≥ 1), 0 views and no claps |
| App.CommentDraft | src/App.jsx:322 | no user is handled first; an all-whitespace text is ignored; otherwise the comment has the trimmed, non-empty text, the post id and the commenter |
| App.OpenCardStep | src/App.jsx:240-241 | only the view moves, exactly when the home page has an `i`-th card, and it moves to that card's post |
| App.ClapStep | src/App.jsx:185 | only the posts can change, only for a signed-in user on a post that was found, and their number stays |
| App.PostCommentStep | src/App.jsx:322 | only the comment lists can change, and they change exactly when a signed-in user sends text that is not blank on a post that was found |
| App.PublishStep | src/App.jsx:339-357 | a post is added exactly when a signed-in user in the editor gives a title that is not blank and content that does not strip to nothing; then the older posts stay and the view returns home, otherwise nothing changes |
| App.Step | src/App.jsx:137-165 | only sign-in and sign-out change the user; only the search box changes the query; only clapping or publishing from the editor changes the posts; only commenting on a post changes the comments |
| App.StepKeepsInv | src/App.jsx:137-165 | every action keeps the invariant: sequential post ids, duplicate-free claps, well-formed comment lists, views that name existing posts, and stored read times that match the content |
| App.OpenCardKeepsInv | src/App.jsx:240-241 | opening a card keeps the invariant |
| App.OpenCardNamesPost | src/App.jsx:240-241 | opening a card either changes nothing or sets a view naming a post in the list |
| App.PostDetailViewWellFormed | src/App.jsx:241 | the post view a card opens, for an existing id, is well formed |
| App.PostCommentKeepsInv | src/App.jsx:184 | commenting keeps the invariant; in particular every comment list stays numbered and filed under an existing post |
| App.PublishKeepsInv | src/App.jsx:339-357 | publishing keeps the invariant |
| App.PublishKeepsCore | src/App.jsx:355-357 | publishing keeps ids sequential, claps duplicate-free, comment lists well formed and the view well formed |
| App.PublishKeepsReadTimes | src/App.jsx:343-351 | a published post stores the estimate for its content, so every stored read time stays current |
| App.AddPostKeepsClapsNoDup | src/App.jsx:150-152 | prepending a post with no claps keeps every post's claps duplicate-free |
| App.ToggleClapKeepsInv | src/App.jsx:185 | clapping keeps the invariant |
| App.ToggleClapKeepsCore | src/App.jsx:159-165 | clapping keeps every id, and hence the structural part of the invariant |
| App.SameIdsSameKeys | src/App.jsx:159-165 | post lists with the same ids at the same positions know the same ids |
| App.PostViewResolves | src/App.jsx:280 | in a session that keeps the invariant a post view always finds its post |
| App.DetailShowsIndex | src/App.jsx:179-183 | a post view shows the one post with the view's id, with that post's comments |
| App.OpenCardShowsPost | src/App.jsx:240-241 | opening the `i`-th card shows that very post with its comments |
| App.NavigationOnlyMovesView | src/App.jsx:204-213 | navigation replaces the view and leaves posts, comments, user and search alone |
| App.PublishRefusedChangesNothing | src/App.jsx:340-341 | publishing signed out, or with a blank title or content, changes nothing |
| App.PublishAddsPost | src/App.jsx:339-357 | a successful publish prepends post `p<n+1>` with the trimmed title, the author, the read time and no claps; it keeps the older posts and returns home |
| App.ClapFlipsOwnClap | src/App.jsx:185 | clapping flips only the signed-in user's clap on the shown post and no other post changes; signed out it does nothing |
| App.ClapTwiceRestores | src/App.jsx:159-165 | clapping twice restores every post's claps as a collection |
| App.CommentAppends | src/App.jsx:322 | an accepted comment appears last in the post's thread, numbered after the others, and nothing else changes |
| App.CommentRefusedChangesNothing | src/App.jsx:322 | a comment sent signed out, or blank, changes nothing |

## Left out

- Rendering, hooks, framer-motion animation, scroll progress, icons and the presentational components: UI only.
- The ReactQuill editor: its HTML output is an opaque string here.
- The `formatDistanceToNow` display and `new Date()`: the clock is the `now` parameter, and timestamps are opaque integers.
- The Firebase block at the top of the file (src/App.jsx:16-35): lines 32-35 call `initializeApp`, `getAuth`, `getFirestore` and `new GoogleAuthProvider()`, none of which is imported (lines 2-7), so as written loading the module throws a `ReferenceError` before `App` renders. The model assumes lines 32-35 are gone, as line 1's "(Firebase removed)" intends; nothing else in the file uses `app`, `auth`, `db` or `provider`.
- `navigator.share` and `alert`: browser I/O. Only their effect of not changing the state is modelled.
- The auth user's `doc.bookmarks` and the seed users' `bio`, `followers` and `following`: nothing reads them.
- Follow and bookmark: the buttons are disabled stubs.
- The stray, incomplete `PostDetailPage` header at lines 271-273, which comes before the complete definition: only the complete definition from line 275 is modelled.
- `src/main.jsx`: DOM bootstrapping only.
- The card snippet (`slice(0, 160)`) and the share text (`slice(0, 120)`): display only.
- Component-local UI state such as `publishing`, the dropdown `open` flag and the clearing of the comment box. The form fields arrive as event parameters.
- `viewCount`: every post is created with 0 and the code never increments it. The model follows the code.
- Strings.LowerStr: lower-cases ASCII letters only, because JavaScript's full Unicode case mapping is out of scope. The search is therefore case-insensitive for ASCII only.
- Store.ToggleClapsTwice: restores the claps as a multiset, and as the identical list only when the uid had not clapped. When it had, the filter removes it and the re-append puts it at the end of the array. The claps are also required to be duplicate-free, which `App.StepKeepsInv` shows every session maintains.
- Store.ToggleClapTwice: the same collection-level restoration as `Store.ToggleClapsTwice`, for the same reason.
- App.ClapTwiceRestores: the same collection-level restoration as `Store.ToggleClapsTwice`, for the same reason.

=== FILE: app.dfy ===
/** The `App` component of src/App.jsx as a state machine: the view
    descriptor `{page, params}`, the content store, the signed-in user and
    the search box, with one transition per user action the pages offer. */
module App {
  import opened Options
  import opened Strings
  import opened Html
  import opened ReadTime
  import opened Store

  /** The signed-in user as the local auth context stores it. */
  datatype User = User(uid: string, displayName: string, photoURL: string)

  datatype Page = Home | PostDetail | CreatePost

  /** The `{page, params}` view descriptor; every navigation replaces it. */
  datatype View = View(page: Page, params: map<string, string>)

  const PostIdParam: string := "postId"

  function HomeView(): View {
    View(Home, map[])
  }

  function CreatePostView(): View {
    View(CreatePost, map[])
  }

  function PostDetailView(postId: string): View {
    View(PostDetail, map[PostIdParam := postId])
  }

  datatype State = State(
    view: View,
    posts: seq<Post>,
    comments: CommentMap,
    user: Option<User>,
    search: string)

  // ---------------------------------------------------------------------------
  // Seed data and the initial state
  // ---------------------------------------------------------------------------

  /** The user `login` installs: the seed reader `u2`. */
  const SeedReader: User := User("u2", "Bob Reader", "")

  /** The words of the seed paragraph `This is a local demo without
      Firebase. Create, view, and comment locally.` */
  const WelcomeWords: seq<string> :=
    ["This", "is", "a", "local", "demo", "without", "Firebase.",
     "Create,", "view,", "and", "comment", "locally."]

  /** The seed post's content: that paragraph in `<p>` tags, its words
      separated by single spaces. */
  const WelcomeContent: string := "<p>" + Join(WelcomeWords) + "</p>"

  /** The seed paragraph is twelve plain words. */
  lemma WelcomeWordsPlain()
    ensures |WelcomeWords| == 12 && AllPlain(WelcomeWords)
  {
    forall k | 0 <= k < 12 ensures PlainWord(WelcomeWords[k]) {
      PrintableWord(WelcomeWords[k]);
    }
  }

  /** A word of printable ASCII characters other than `<` and `&` is plain. */
  lemma PrintableWord(w: string)
    requires |w| > 0
    requires forall i :: 0 <= i < |w| ==> '!' <= w[i] <= '~' && w[i] != '<' && w[i] != '&'
    ensures PlainWord(w)
  {
  }

  /** The read time hard-coded into the seed post is the estimate for its
      content: twelve words read in one minute. */
  lemma WelcomeReadTime()
    ensures EstimateReadTime(WelcomeContent) == 1
  {
    WelcomeWordsPlain();
    ReadTimeOfParagraph(WelcomeWords);
  }

  /** The seed post `p1` by `u1`, stamped `now`, with the read time the
      source writes down for it. */
  function WelcomePost(now: int): Post {
    Post("p1", "Welcome to Rune (React-only Demo)", WelcomeContent,
         "u1", "Alice Writer", "", now, 1, 0, [])
  }

  /** The seed comment `c1` by `u2` on `p1`, stamped `now`. */
  function Greeting(now: int): Comment {
    Comment("c1", "p1", "u2", "Bob Reader", "", "Great start!", now)
  }

  /** The session as it starts: the seed post with its one comment; nobody
      signed in; home page. It satisfies the session invariant, including
      the read time written into the seed post. */
  function Init(now: int): (s: State)
    ensures s.view == HomeView() && s.user.None? && s.search == ""
    ensures Inv(s)
  {
    var p := WelcomePost(now);
    WelcomeReadTime();
    SeedReadTimes(p);
    SeedShape(p, Greeting(now));
    State(HomeView(), [p], map["p1" := [Greeting(now)]], None, "")
  }

  // ---------------------------------------------------------------------------
  // Rendering: which screen a view shows
  // ---------------------------------------------------------------------------

  datatype Screen =
    | HomeScreen(cards: seq<Post>)
    | PostScreen(post: Post, thread: seq<Comment>)
    | NotFound
    | Editor

  /** The post a `postDetail` view resolves to, if any: found exactly when
      the view names the id of a post in the list. */
  function CurrentPost(s: State): (r: Option<Post>)
    ensures r.Some? <==> s.view.page == PostDetail && PostIdParam in s.view.params
                         && HasPost(s.posts, s.view.params[PostIdParam])
    ensures r.Some? ==> r.value in s.posts && r.value.id == s.view.params[PostIdParam]
  {
    if s.view.page == PostDetail && PostIdParam in s.view.params
    then FindPost(s.posts, s.view.params[PostIdParam])
    else None
  }

  /** What the `App` body renders for the current view. A `postDetail` view
      whose id is missing or unknown renders "Post not found." rather than
      failing. */
  function Render(s: State): (sc: Screen)
    ensures sc.HomeScreen? <==> s.view.page == Home
    ensures sc.HomeScreen? ==> IsSubsequence(sc.cards, s.posts)
                               && forall p :: p in sc.cards <==> p in s.posts && (s.search == "" || Matches(p, s.search))
    ensures sc.Editor? <==> s.view.page == CreatePost
    ensures sc.NotFound? <==> s.view.page == PostDetail
                              && (PostIdParam !in s.view.params || !HasPost(s.posts, s.view.params[PostIdParam]))
    ensures sc.PostScreen? ==> && PostIdParam in s.view.params
                               && sc.post in s.posts && sc.post.id == s.view.params[PostIdParam]
                               && sc.thread == CommentsOf(s.comments, sc.post.id)
  {
    match s.view.page
    case Home => HomeScreen(Search(s.posts, s.search))
    case CreatePost => Editor
    case PostDetail =>
      match CurrentPost(s)
      case None => NotFound
      case Some(p) => PostScreen(p, CommentsOf(s.comments, s.view.params[PostIdParam]))
  }

  // ---------------------------------------------------------------------------
  // The two form handlers
  // ---------------------------------------------------------------------------

  /** What a handler does with a submission: ask the visitor to sign in,
      refuse the input, or go ahead with the record it built. */
  datatype Outcome<T> = NeedsSignIn | Refused | Accepted(value: T)

  /** `a || b` on strings: the empty string falls back to `b`. */
  function OrElse(a: string, b: string): (r: string)
    ensures r == a || (a == "" && r == b)
    ensures r != "" <==> a != "" || b != ""
  {
    if a != "" then a else b
  }

  /** The publish check `!title.trim() || !stripHtml(content).trim()` in
      terms of the fields themselves; the second `trim` never changes the
      stripped text. */
  lemma BlankFields(title: string, content: string)
    ensures Trim(title) == "" <==> AllSpace(title)
    ensures Trim(StripHtml(content)) == StripHtml(content)
  {
    TrimEmptyIffAllSpace(title);
    StripHtmlShape(content);
    TrimOfTrimmed(StripHtml(content));
  }

  /** `CreatePostPage.publish`: the user check comes first; a title that is
      all whitespace or content that strips to nothing is refused; otherwise
      the draft carries the trimmed title, the content as typed, the author,
      the estimated read time, no views and no claps. Its id is assigned by
      `AddPost`. */
  function PublishDraft(user: Option<User>, title: string, content: string, now: int): (o: Outcome<Post>)
    ensures o.NeedsSignIn? <==> user.None?
    ensures o.Refused? <==> user.Some? && (AllSpace(title) || StripHtml(content) == "")
    ensures o.Accepted? ==> var d := o.value;
              && d.title == Trim(title) && d.title != "" && IsTrimmed(d.title)
              && d.content == content && StripHtml(content) != ""
              && d.authorId == user.value.uid
              && d.authorName == OrElse(user.value.displayName, "Anonymous") && d.authorName != ""
              && d.authorPhotoURL == user.value.photoURL
              && d.createdAt == now
              && d.estimatedReadTime == EstimateReadTime(content) && d.estimatedReadTime >= 1
              && d.viewCount == 0
              && d.claps == []
  {
    BlankFields(title, content);
    if user.None? then NeedsSignIn
    else if Trim(title) == "" || Trim(StripHtml(content)) == "" then Refused
    else
      var u := user.value;
      Accepted(Post("", Trim(title), content, u.uid, OrElse(u.displayName, "Anonymous"),
                    OrElse(u.photoURL, ""), now, EstimateReadTime(content), 0, []))
  }

  /** The "Post Comment" handler: the user check comes first; a text that is
      all whitespace is ignored; otherwise the comment carries the trimmed
      text, the post id and the commenter. Its id is assigned by
      `AddComment`. */
  function CommentDraft(user: Option<User>, postId: string, text: string, now: int): (o: Outcome<Comment>)
    ensures o.NeedsSignIn? <==> user.None?
    ensures o.Refused? <==> user.Some? && AllSpace(text)
    ensures o.Accepted? ==> var c := o.value;
              && c.text == Trim(text) && c.text != "" && IsTrimmed(c.text)
              && c.postId == postId
              && c.userId == user.value.uid
              && c.userName == OrElse(user.value.displayName, "Anonymous") && c.userName != ""
              && c.userPhotoURL == user.value.photoURL
              && c.createdAt == now
  {
    TrimEmptyIffAllSpace(text);
    if user.None? then NeedsSignIn
    else if Trim(text) == "" then Refused
    else
      var u := user.value;
      Accepted(Comment("", postId, u.uid, OrElse(u.displayName, "Anonymous"),
                       OrElse(u.photoURL, ""), Trim(text), now))
  }

  // ---------------------------------------------------------------------------
  // Events
  // ---------------------------------------------------------------------------

  /** The actions the pages offer. Timestamps (`new Date()`) come in as
      `now`; form fields come in as the text typed. */
  datatype Event =
    | SetSearch(query: string)            // the navbar search box
    | GoHome                              // the "Rune" logo
    | GoWrite                             // the "Write" button
    | OpenCard(index: nat)                // a card on the home page
    | Login
    | Logout
    | Clap                                // the clap button on a post
    | PostComment(text: string, now: int) // "Post Comment" on a post
    | Publish(title: string, content: string, now: int) // "Publish" in the editor

  /** A click on the `i`-th card of the home page: only the view moves, and
      only when there is such a card, to the post on it. */
  function OpenCardStep(s: State, i: nat): (t: State)
    ensures t.posts == s.posts && t.comments == s.comments && t.user == s.user && t.search == s.search
    ensures t.view != s.view <==> s.view.page == Home && i < |Search(s.posts, s.search)|
    ensures t.view != s.view ==> t.view == PostDetailView(Search(s.posts, s.search)[i].id)
  {
    var cards := Search(s.posts, s.search);
    if s.view.page == Home && i < |cards| then s.(view := PostDetailView(cards[i].id)) else s
  }

  /** The clap button: shown only on a post that was found, and disabled
      while signed out. Only the post list can change. */
  function ClapStep(s: State): (t: State)
    ensures t.view == s.view && t.comments == s.comments && t.user == s.user && t.search == s.search
    ensures t.posts != s.posts ==> CurrentPost(s).Some? && s.user.Some?
    ensures |t.posts| == |s.posts|
  {
    if CurrentPost(s).Some? && s.user.Some?
    then s.(posts := ToggleClap(s.posts, s.view.params[PostIdParam], s.user.value.uid))
    else s
  }

  /** "Post Comment": shown only on a post that was found. The comment lists
      change exactly when a signed-in user sends text that is not blank;
      nothing else ever changes. */
  function PostCommentStep(s: State, text: string, now: int): (t: State)
    ensures t.view == s.view && t.posts == s.posts && t.user == s.user && t.search == s.search
    ensures t.comments != s.comments <==> CurrentPost(s).Some? && s.user.Some? && !AllSpace(text)
  {
    if CurrentPost(s).Some? then
      var postId := s.view.params[PostIdParam];
      var o := CommentDraft(s.user, postId, text, now);
      if o.Accepted? then
        var r := AddComment(s.comments, postId, o.value);
        assert |CommentsOf(r, postId)| != |CommentsOf(s.comments, postId)|;
        s.(comments := r)
      else s
    else s
  }

  /** "Publish": shown only in the editor. A post is added exactly when a
      signed-in user publishes a title that is not blank and content that
      does not strip to nothing, and then the view returns home; otherwise
      nothing changes. */
  function PublishStep(s: State, title: string, content: string, now: int): (t: State)
    ensures t.comments == s.comments && t.user == s.user && t.search == s.search
    ensures |t.posts| == |s.posts| + 1 <==>
              s.view.page == CreatePost && s.user.Some? && !AllSpace(title) && StripHtml(content) != ""
    ensures |t.posts| == |s.posts| + 1 ==> t.view == HomeView() && t.posts[1..] == s.posts
    ensures |t.posts| != |s.posts| + 1 ==> t == s
  {
    if s.view.page == CreatePost then
      var o := PublishDraft(s.user, title, content, now);
      if o.Accepted? then s.(posts := AddPost(s.posts, o.value), view := HomeView()) else s
    else s
  }

  /** One user action. Cards exist only on the home page, the clap button and
      the comment form only on a post that was found, the publish button only
      in the editor; an action without its control changes nothing. */
  function Step(s: State, e: Event): (t: State)
    ensures t.user != s.user ==> e.Login? || e.Logout?
    ensures t.search != s.search ==> e.SetSearch?
    ensures t.posts != s.posts ==> e.Clap? || (e.Publish? && s.view.page == CreatePost)
    ensures t.comments != s.comments ==> e.PostComment? && s.view.page == PostDetail
    ensures |t.posts| == |s.posts| || |t.posts| == |s.posts| + 1
  {
    match e
    case SetSearch(q) => s.(search := q)
    case GoHome => s.(view := HomeView())
    case GoWrite => s.(view := CreatePostView())
    case OpenCard(i) => OpenCardStep(s, i)
    case Login => s.(user := Some(SeedReader))
    case Logout => s.(user := None)
    case Clap => ClapStep(s)
    case PostComment(text, now) => PostCommentStep(s, text, now)
    case Publish(title, content, now) => PublishStep(s, title, content, now)
  }

  // ---------------------------------------------------------------------------
  // The session invariant
  // ---------------------------------------------------------------------------

  /** A view as the app ever sets one: home and the editor carry no
      parameters; a post view carries exactly the id of an existing post. */
  predicate ViewWellFormed(v: View, posts: seq<Post>) {
    if v.page == PostDetail
    then v.params.Keys == {PostIdParam} && HasPost(posts, v.params[PostIdParam])
    else v.params == map[]
  }

  /** The structural half of the invariant: ids, claps, comment lists and
      the view. */
  predicate InvCore(s: State) {
    && SequentialIds(s.posts)
    && ClapsNoDup(s.posts)
    && CommentsWellFormed(s.posts, s.comments)
    && ViewWellFormed(s.view, s.posts)
  }

  /** The session invariant: the structure above, and every post's stored
      read time is the estimate for its content. */
  predicate Inv(s: State) {
    InvCore(s) && ReadTimesCurrent(s.posts)
  }

  /** A home-page session holding one post `p1` without claps and one
      comment `c1` on it has sequential ids, well-formed comments and a
      well-formed view. */
  lemma SeedShape(p: Post, c: Comment)
    requires p.id == "p1" && p.claps == []
    requires c.id == "c1" && c.postId == "p1"
    ensures var posts := [p];
            && SequentialIds(posts) && ClapsNoDup(posts)
            && CommentsWellFormed(posts, map["p1" := [c]])
            && ViewWellFormed(HomeView(), posts)
  {
    assert PostId(1) == "p1";
    assert CommentId(1) == "c1";
    assert [p][0].id == "p1";
    assert HasPost([p], "p1");
  }

  lemma SeedReadTimes(p: Post)
    requires p.estimatedReadTime == EstimateReadTime(p.content)
    ensures ReadTimesCurrent([p])
  {
  }

  /** Two post lists with the same ids know the same ids. */
  lemma SameIdsSameKeys(posts: seq<Post>, r: seq<Post>, id: string)
    requires |r| == |posts|
    requires forall i :: 0 <= i < |posts| ==> r[i].id == posts[i].id
    ensures HasPost(r, id) <==> HasPost(posts, id)
  {
    if HasPost(posts, id) {
      var i :| 0 <= i < |posts| && posts[i].id == id;
      assert r[i].id == id;
    }
    if HasPost(r, id) {
      var i :| 0 <= i < |r| && r[i].id == id;
      assert posts[i].id == id;
    }
  }

  lemma ToggleClapKeepsInv(s: State, postId: string, uid: string)
    requires Inv(s)
    ensures Inv(s.(posts := ToggleClap(s.posts, postId, uid)))
  {
    ToggleClapKeepsCore(s, postId, uid);
    ToggleClapKeepsReadTimes(s.posts, postId, uid);
  }

  lemma ToggleClapKeepsCore(s: State, postId: string, uid: string)
    requires InvCore(s)
    ensures InvCore(s.(posts := ToggleClap(s.posts, postId, uid)))
  {
    var r := ToggleClap(s.posts, postId, uid);
    assert forall i :: 0 <= i < |s.posts| ==> r[i].id == s.posts[i].id by {
      forall i | 0 <= i < |s.posts| ensures r[i].id == s.posts[i].id {
        assert r[i].(claps := s.posts[i].claps) == s.posts[i];
      }
    }
    ToggleClapKeepsNoDup(s.posts, postId, uid);
    forall k | k in s.comments ensures HasPost(r, k) {
      SameIdsSameKeys(s.posts, r, k);
    }
    if s.view.page == PostDetail {
      SameIdsSameKeys(s.posts, r, s.view.params[PostIdParam]);
    }
  }

  lemma OpenCardKeepsInv(s: State, i: nat)
    requires Inv(s)
    ensures Inv(Step(s, OpenCard(i)))
  {
    StepOpenCard(s, i);
    OpenCardNamesPost(s, i);
  }

  /** Opening a card moves only the view, to a post the list holds. */
  lemma OpenCardNamesPost(s: State, i: nat)
    ensures var t := OpenCardStep(s, i);
            && t.posts == s.posts && t.comments == s.comments
            && (t == s || ViewWellFormed(t.view, s.posts))
  {
    var cards := Search(s.posts, s.search);
    if s.view.page == Home && i < |cards| {
      SearchListsHeldPosts(s.posts, s.search, i);
      PostDetailViewWellFormed(s.posts, cards[i].id);
    }
  }

  /** A post view of an existing post is well formed. */
  lemma PostDetailViewWellFormed(posts: seq<Post>, id: string)
    requires HasPost(posts, id)
    ensures ViewWellFormed(PostDetailView(id), posts)
  {
    assert PostDetailView(id).params.Keys == {PostIdParam};
  }

  /** `Step` hands each of these events to its handler. */
  lemma StepOpenCard(s: State, i: nat)
    ensures Step(s, OpenCard(i)) == OpenCardStep(s, i)
  {
  }

  lemma StepPostComment(s: State, text: string, now: int)
    ensures Step(s, PostComment(text, now)) == PostCommentStep(s, text, now)
  {
  }

  lemma StepClap(s: State)
    ensures Step(s, Clap) == ClapStep(s)
  {
  }

  lemma StepPublish(s: State, title: string, content: string, now: int)
    ensures Step(s, Publish(title, content, now)) == PublishStep(s, title, content, now)
  {
  }

  lemma PostCommentKeepsInv(s: State, text: string, now: int)
    requires Inv(s)
    ensures Inv(Step(s, PostComment(text, now)))
  {
    StepPostComment(s, text, now);
    if CurrentPost(s).Some? {
      var postId := s.view.params[PostIdParam];
      var o := CommentDraft(s.user, postId, text, now);
      if o.Accepted? {
        AddCommentKeepsWellFormed(s.posts, s.comments, postId, o.value);
      }
    }
  }

  lemma AddPostKeepsClapsNoDup(posts: seq<Post>, d: Post)
    requires ClapsNoDup(posts) && d.claps == []
    ensures ClapsNoDup(AddPost(posts, d))
  {
    var r := AddPost(posts, d);
    forall i | 0 <= i < |r| ensures NoDup(r[i].claps) {
      if i > 0 {
        assert r[i] == posts[i - 1];
      }
    }
  }

  lemma PublishKeepsInv(s: State, title: string, content: string, now: int)
    requires Inv(s)
    ensures Inv(Step(s, Publish(title, content, now)))
  {
    PublishKeepsCore(s, title, content, now);
    PublishKeepsReadTimes(s, title, content, now);
  }

  /** Publishing keeps the structural part of the invariant. */
  lemma PublishKeepsCore(s: State, title: string, content: string, now: int)
    requires InvCore(s)
    ensures InvCore(Step(s, Publish(title, content, now)))
  {
    if s.view.page == CreatePost {
      var o := PublishDraft(s.user, title, content, now);
      if o.Accepted? {
        AddPostKeepsSequentialIds(s.posts, o.value);
        AddPostKeepsCommentsWellFormed(s.posts, s.comments, o.value);
        AddPostKeepsClapsNoDup(s.posts, o.value);
      }
    }
  }

  /** A published post carries the read time of its content, so every stored
      read time stays current. */
  lemma PublishKeepsReadTimes(s: State, title: string, content: string, now: int)
    requires ReadTimesCurrent(s.posts)
    ensures ReadTimesCurrent(Step(s, Publish(title, content, now)).posts)
  {
    var t := Step(s, Publish(title, content, now));
    assert t == PublishStep(s, title, content, now);
    if s.view.page == CreatePost {
      var o := PublishDraft(s.user, title, content, now);
      if o.Accepted? {
        AddPostKeepsReadTimes(s.posts, o.value);
        assert t.posts == AddPost(s.posts, o.value);
      } else {
        assert t.posts == s.posts;
      }
    } else {
      assert t.posts == s.posts;
    }
  }

  /** Every action keeps the session invariant. */
  lemma StepKeepsInv(s: State, e: Event)
    requires Inv(s)
    ensures Inv(Step(s, e))
  {
    match e
    case OpenCard(i) => OpenCardKeepsInv(s, i);
    case Clap =>
      StepClap(s);
      if CurrentPost(s).Some? && s.user.Some? {
        ToggleClapKeepsInv(s, s.view.params[PostIdParam], s.user.value.uid);
      }
    case PostComment(text, now) => PostCommentKeepsInv(s, text, now);
    case Publish(title, content, now) => PublishKeepsInv(s, title, content, now);
    case _ =>
  }

  // ---------------------------------------------------------------------------
  // Properties of the session
  // ---------------------------------------------------------------------------

  /** In every session that keeps the invariant a post view finds its post:
      the "not found" screen is only reachable through a hand-made view. */
  lemma PostViewResolves(s: State)
    requires InvCore(s) && s.view.page == PostDetail
    ensures Render(s).PostScreen?
  {
  }

  /** Opening the `i`-th card shows that very post with its comments. */
  lemma OpenCardShowsPost(s: State, i: nat)
    requires InvCore(s) && s.view.page == Home && i < |Search(s.posts, s.search)|
    ensures var p := Search(s.posts, s.search)[i];
            Render(Step(s, OpenCard(i))) == PostScreen(p, CommentsOf(s.comments, p.id))
  {
    StepOpenCard(s, i);
    SequentialIdsDistinct(s.posts);
    SearchResultsResolve(s.posts, s.search, i);
  }

  /** Navigation replaces the view and touches nothing else. */
  lemma NavigationOnlyMovesView(s: State, e: Event)
    requires e.GoHome? || e.GoWrite? || e.OpenCard?
    ensures var t := Step(s, e);
            t.posts == s.posts && t.comments == s.comments && t.user == s.user && t.search == s.search
    ensures e.GoHome? ==> Render(Step(s, e)) == HomeScreen(Search(s.posts, s.search))
    ensures e.GoWrite? ==> Render(Step(s, e)) == Editor
  {
  }

  /** Publishing while signed out, or with a blank title or blank content,
      changes nothing at all. */
  lemma PublishRefusedChangesNothing(s: State, title: string, content: string, now: int)
    requires s.user.None? || AllSpace(title) || StripHtml(content) == ""
    ensures Step(s, Publish(title, content, now)) == s
  {
  }

  /** A successful publish puts the new post, numbered after the existing
      ones, in front of them and returns to the home page. */
  lemma PublishAddsPost(s: State, title: string, content: string, now: int)
    requires s.view.page == CreatePost && s.user.Some?
    requires !AllSpace(title) && StripHtml(content) != ""
    ensures var t := Step(s, Publish(title, content, now));
            && t.view == HomeView()
            && |t.posts| == |s.posts| + 1 && t.posts[1..] == s.posts
            && t.posts[0].id == PostId(|s.posts| + 1)
            && t.posts[0].title == Trim(title)
            && t.posts[0].authorId == s.user.value.uid
            && t.posts[0].estimatedReadTime == EstimateReadTime(content)
            && t.posts[0].claps == []
            && t.comments == s.comments && t.user == s.user
  {
    StepPublish(s, title, content, now);
    var o := PublishDraft(s.user, title, content, now);
    assert o.Accepted?;
    assert PublishStep(s, title, content, now) == s.(posts := AddPost(s.posts, o.value), view := HomeView());
  }

  /** Under the invariant a post view shows the post at index `k`, the
      only one with the id in the view. */
  lemma DetailShowsIndex(s: State) returns (k: nat)
    requires InvCore(s) && s.view.page == PostDetail
    ensures k < |s.posts| && s.posts[k].id == s.view.params[PostIdParam]
    ensures Render(s) == PostScreen(s.posts[k], CommentsOf(s.comments, s.posts[k].id))
  {
    SequentialIdsDistinct(s.posts);
    k :| 0 <= k < |s.posts| && s.posts[k].id == s.view.params[PostIdParam];
    FindPostUnique(s.posts, k);
  }

  /** Clapping on a post flips whether the signed-in user has clapped it and
      leaves every other user's claps and every other post alone; signed out,
      the button does nothing. */
  lemma ClapFlipsOwnClap(s: State)
    requires InvCore(s) && s.view.page == PostDetail
    ensures var t := Step(s, Clap);
            var before, after := Render(s), Render(t);
            && before.PostScreen? && after.PostScreen?
            && (s.user.None? ==> t == s)
            && (s.user.Some? ==> (s.user.value.uid in after.post.claps <==> s.user.value.uid !in before.post.claps))
            && (forall y :: (s.user.None? || y != s.user.value.uid) ==>
                  multiset(after.post.claps)[y] == multiset(before.post.claps)[y])
            && |t.posts| == |s.posts|
            && (forall i :: 0 <= i < |s.posts| && s.posts[i].id != before.post.id ==> t.posts[i] == s.posts[i])
  {
    var t := Step(s, Clap);
    var k := DetailShowsIndex(s);
    StepClap(s);
    if s.user.Some? {
      var id, uid := s.view.params[PostIdParam], s.user.value.uid;
      assert t.posts == ToggleClap(s.posts, id, uid);
      ToggleClapKeepsCore(s, id, uid);
      var k' := DetailShowsIndex(t);
      SequentialIdsDistinct(t.posts);
      assert t.posts[k].id == id by {
        assert t.posts[k].(claps := s.posts[k].claps) == s.posts[k];
      }
      assert k' == k;
      assert Render(t).post == t.posts[k];
    } else {
      assert t == s;
    }
  }

  /** Clapping twice restores the post's claps (as a collection). */
  lemma ClapTwiceRestores(s: State)
    requires InvCore(s) && s.view.page == PostDetail
    ensures var t := Step(Step(s, Clap), Clap);
            && |t.posts| == |s.posts|
            && forall i :: 0 <= i < |s.posts| ==>
                 && t.posts[i].(claps := s.posts[i].claps) == s.posts[i]
                 && multiset(t.posts[i].claps) == multiset(s.posts[i].claps)
  {
    var once := Step(s, Clap);
    StepClap(s);
    StepClap(once);
    if s.user.Some? {
      var id, uid := s.view.params[PostIdParam], s.user.value.uid;
      ToggleClapKeepsCore(s, id, uid);
      assert once.posts == ToggleClap(s.posts, id, uid);
      assert Step(once, Clap).posts == ToggleClap(once.posts, id, uid);
      ToggleClapTwice(s.posts, id, uid);
    }
  }

  /** A comment that passes the guard appears at the end of the post's
      thread, numbered after the earlier ones, and no other thread changes. */
  lemma CommentAppends(s: State, text: string, now: int)
    requires InvCore(s) && s.view.page == PostDetail && s.user.Some? && !AllSpace(text)
    ensures var t := Step(s, PostComment(text, now));
            var before, after := Render(s), Render(t);
            && before.PostScreen? && after.PostScreen?
            && |after.thread| == |before.thread| + 1
            && after.thread[..|before.thread|] == before.thread
            && after.thread[|before.thread|].id == CommentId(|after.thread|)
            && after.thread[|before.thread|].text == Trim(text)
            && after.thread[|before.thread|].userId == s.user.value.uid
            && (forall k :: k != before.post.id ==> CommentsOf(t.comments, k) == CommentsOf(s.comments, k))
            && t.posts == s.posts
  {
    StepPostComment(s, text, now);
    var k := DetailShowsIndex(s);
    var id := s.view.params[PostIdParam];
    var o := CommentDraft(s.user, id, text, now);
    assert o.Accepted?;
    var t := s.(comments := AddComment(s.comments, id, o.value));
    assert Step(s, PostComment(text, now)) == t;
    assert CurrentPost(t) == CurrentPost(s);
    assert Render(t) == PostScreen(s.posts[k], CommentsOf(t.comments, id));
  }

  /** A blank comment, or one sent while signed out, changes nothing. */
  lemma CommentRefusedChangesNothing(s: State, text: string, now: int)
    requires s.user.None? || AllSpace(text)
    ensures Step(s, PostComment(text, now)) == s
  {
  }
}

=== FILE: decimal.dfy ===
/** Decimal rendering of natural numbers, as a JavaScript template literal
    such as `p${n}` prints them, and its inverse. */
module Decimal {

  predicate IsDigit(c: char) {
    '0' <= c <= '9'
  }

  function DigitChar(d: nat): (c: char)
    requires d < 10
    ensures IsDigit(c) && c as int - '0' as int == d
  {
    ('0' as int + d) as char
  }

  /** The canonical decimal numeral of `n`: digits only, no leading zero. */
  function NatToString(n: nat): (r: string)
    ensures |r| >= 1
    ensures forall i :: 0 <= i < |r| ==> IsDigit(r[i])
    ensures r[0] != '0' || n == 0
    decreases n
  {
    if n < 10 then [DigitChar(n)] else NatToString(n / 10) + [DigitChar(n % 10)]
  }

  /** Reads a string of decimal digits back as a number. */
  function ParseDecimal(s: string): nat
    requires forall i :: 0 <= i < |s| ==> IsDigit(s[i])
    decreases |s|
  {
    if |s| == 0 then 0
    else
      assert IsDigit(s[|s| - 1]);
      ParseDecimal(s[..|s| - 1]) * 10 + (s[|s| - 1] as int - '0' as int)
  }

  /** Parsing undoes printing. */
  lemma {:induction false} ParseNatToString(n: nat)
    ensures ParseDecimal(NatToString(n)) == n
    decreases n
  {
    var r := NatToString(n);
    if n >= 10 {
      ParseNatToString(n / 10);
      assert r[..|r| - 1] == NatToString(n / 10);
    }
  }

  /** Distinct numbers print as distinct numerals, so identifiers built from
      distinct sequence numbers never collide. */
  lemma NatToStringInjective(m: nat, n: nat)
    requires m != n
    ensures NatToString(m) != NatToString(n)
  {
    ParseNatToString(m);
    ParseNatToString(n);
  }
}

=== FILE: html.dfy ===
/** `stripHtml` (src/App.jsx): turns a rich-text HTML fragment into plain
    text. The source chains four rewrites; each is modelled as a left-to-right
    character scan with the same leftmost, non-overlapping semantics as the
    global regular expression it stands for:

      1. `/<[^>]*>/g -> ' '`   every tag becomes one space;
      2. `/&nbsp;/g -> ' '`    every `&nbsp;` entity becomes one space;
      3. `/\s+/g -> ' '`       every whitespace run becomes one space;
      4. `trim()`. */
module Html {
  import opened Strings

  const Nbsp: string := "&nbsp;"

  /** No `<` has a `>` anywhere after it: no complete tag is left. */
  predicate TagFree(s: string) {
    forall i, j :: 0 <= i < j < |s| && s[i] == '<' ==> s[j] != '>'
  }

  /** Every character of `r` other than a space already occurs in `s`. */
  predicate OnlySpacesAdded(s: string, r: string) {
    forall c :: c in r && c != ' ' ==> c in s
  }

  /** Whitespace only as single plain spaces. */
  predicate SingleSpaced(s: string) {
    && (forall i :: 0 <= i < |s| && IsSpace(s[i]) ==> s[i] == ' ')
    && (forall i :: 0 <= i < |s| - 1 ==> !(IsSpace(s[i]) && IsSpace(s[i + 1])))
  }

  predicate NoSpace(w: string) {
    forall i :: 0 <= i < |w| ==> !IsSpace(w[i])
  }

  /** `&nbsp;` is a word: it holds no whitespace. */
  lemma NbspIsWord()
    ensures |Nbsp| > 0 && NoSpace(Nbsp)
  {
    assert Nbsp == ['&', 'n', 'b', 's', 'p', ';'];
  }

  /** The shape every result of `StripHtml` has. */
  predicate Normalized(s: string) {
    IsTrimmed(s) && SingleSpaced(s) && TagFree(s) && !Contains(s, Nbsp)
  }

  lemma TagFreeSuffix(s: string, k: nat)
    requires k <= |s|
    ensures TagFree(s) ==> TagFree(s[k..])
  {
    if TagFree(s) {
      forall i, j | 0 <= i < j < |s| - k && s[k..][i] == '<' ensures s[k..][j] != '>' {
        assert s[k..][i] == s[k + i] && s[k..][j] == s[k + j];
      }
    }
  }

  lemma TagFreeCons(c: char, x: string)
    ensures TagFree([c] + x) <==> TagFree(x) && (c == '<' ==> '>' !in x)
  {
    var s := [c] + x;
    if TagFree(s) {
      TagFreeSuffix(s, 1);
      assert s[1..] == x;
      if c == '<' {
        forall j | 0 <= j < |x| ensures x[j] != '>' {
          assert s[0] == '<' && 0 < j + 1 < |s|;
          assert s[j + 1] == x[j];
        }
      }
    }
    if TagFree(x) && (c == '<' ==> '>' !in x) {
      forall i, j | 0 <= i < j < |s| && s[i] == '<' ensures s[j] != '>' {
        assert s[j] == x[j - 1];
        if i > 0 {
          assert s[i] == x[i - 1];
        }
      }
    }
  }

  /** Index of the first `c` in `s`. */
  function IndexOf(s: string, c: char): (i: nat)
    requires c in s
    ensures i < |s| && s[i] == c && c !in s[..i]
    decreases |s|
  {
    if s[0] == c then 0
    else
      var j := IndexOf(s[1..], c);
      assert s[..j + 1] == [s[0]] + s[1..][..j];
      j + 1
  }

  // ---------------------------------------------------------------------------
  // Pass 1: tags
  // ---------------------------------------------------------------------------

  /** A `<` that has a `>` somewhere after it opens a tag running to the first
      such `>`, and the tag becomes one space; a `<` with no `>` after it is
      kept literally. */
  function ReplaceTags(s: string): (r: string)
    ensures |r| <= |s|
    ensures '<' !in s ==> r == s
    decreases |s|
  {
    if |s| == 0 then ""
    else if s[0] == '<' && '>' in s then
      " " + ReplaceTags(s[IndexOf(s, '>') + 1..])
    else
      [s[0]] + ReplaceTags(s[1..])
  }

  /** After the first pass no complete tag is left, and the only character the
      pass introduces is the space. */
  lemma {:induction false} ReplaceTagsShape(s: string)
    ensures OnlySpacesAdded(s, ReplaceTags(s))
    ensures TagFree(ReplaceTags(s))
    decreases |s|
  {
    if |s| > 0 {
      if s[0] == '<' && '>' in s {
        ReplaceTagsShape(s[IndexOf(s, '>') + 1..]);
        ReplaceTagsShapeTag(s);
      } else {
        ReplaceTagsShape(s[1..]);
        ReplaceTagsShapeChar(s);
      }
    }
  }

  /** The step of `ReplaceTagsShape` for text that opens with a complete tag. */
  lemma ReplaceTagsShapeTag(s: string)
    requires |s| > 0 && s[0] == '<' && '>' in s
    requires var rest := s[IndexOf(s, '>') + 1..];
      OnlySpacesAdded(rest, ReplaceTags(rest)) && TagFree(ReplaceTags(rest))
    ensures OnlySpacesAdded(s, ReplaceTags(s)) && TagFree(ReplaceTags(s))
  {
    var rest := s[IndexOf(s, '>') + 1..];
    var r := ReplaceTags(s);
    assert r == " " + ReplaceTags(rest);
    TagFreeCons(' ', ReplaceTags(rest));
    forall c | c in r && c != ' ' ensures c in s {
      assert c in ReplaceTags(rest);
      assert c in rest;
    }
  }

  /** The step of `ReplaceTagsShape` for text whose first character is kept. */
  lemma ReplaceTagsShapeChar(s: string)
    requires |s| > 0 && !(s[0] == '<' && '>' in s)
    requires OnlySpacesAdded(s[1..], ReplaceTags(s[1..])) && TagFree(ReplaceTags(s[1..]))
    ensures OnlySpacesAdded(s, ReplaceTags(s)) && TagFree(ReplaceTags(s))
  {
    var r := ReplaceTags(s);
    TagFreeCons(s[0], ReplaceTags(s[1..]));
    assert r == [s[0]] + ReplaceTags(s[1..]);
    forall c | c in r && c != ' ' ensures c in s {
      if c != s[0] {
        assert c in ReplaceTags(s[1..]);
        assert c in s[1..];
      }
    }
    assert s[0] == '<' ==> '>' !in s[1..];
  }

  /** Text without tags passes through unchanged. */
  lemma {:induction false} ReplaceTagsOfTagFree(s: string)
    requires TagFree(s)
    ensures ReplaceTags(s) == s
    decreases |s|
  {
    if |s| > 0 {
      if s[0] == '<' {
        assert forall j :: 0 < j < |s| ==> s[j] != '>';
      }
      TagFreeSuffix(s, 1);
      ReplaceTagsOfTagFree(s[1..]);
    }
  }

  // ---------------------------------------------------------------------------
  // Pass 2: &nbsp;
  // ---------------------------------------------------------------------------

  function ReplaceNbsp(s: string): (r: string)
    ensures |r| <= |s|
    ensures '&' !in s ==> r == s
    decreases |s|
  {
    if |s| == 0 then ""
    else if IsPrefix(Nbsp, s) then
      assert s[0] == Nbsp[0];
      " " + ReplaceNbsp(s[6..])
    else [s[0]] + ReplaceNbsp(s[1..])
  }

  /** The second pass introduces only spaces and cannot create a tag. */
  lemma {:induction false} ReplaceNbspShape(s: string)
    ensures OnlySpacesAdded(s, ReplaceNbsp(s))
    ensures TagFree(s) ==> TagFree(ReplaceNbsp(s))
    decreases |s|
  {
    if |s| > 0 {
      var r := ReplaceNbsp(s);
      if IsPrefix(Nbsp, s) {
        ReplaceNbspShape(s[6..]);
        TagFreeSuffix(s, 6);
        TagFreeCons(' ', ReplaceNbsp(s[6..]));
        forall c | c in r && c != ' ' ensures c in s {
          assert c in ReplaceNbsp(s[6..]);
          assert c in s[6..];
        }
      } else {
        ReplaceNbspShape(s[1..]);
        assert s == [s[0]] + s[1..];
        TagFreeCons(s[0], s[1..]);
        TagFreeCons(s[0], ReplaceNbsp(s[1..]));
        assert r == [s[0]] + ReplaceNbsp(s[1..]);
        forall c | c in r && c != ' ' ensures c in s {
          if c != s[0] {
            assert c in ReplaceNbsp(s[1..]);
            assert c in s[1..];
          }
        }
      }
    }
  }

  /** A space-free prefix of the output was already a prefix of the input:
      the only characters the pass writes are spaces. */
  lemma {:induction false} ReplaceNbspPrefix(w: string, t: string)
    requires NoSpace(w)
    ensures IsPrefix(w, ReplaceNbsp(t)) ==> IsPrefix(w, t)
    decreases |w|
  {
    var r := ReplaceNbsp(t);
    if |w| > 0 && |t| > 0 {
      if IsPrefix(Nbsp, t) {
        assert r[0] == ' ' && !IsSpace(w[0]);
      } else {
        assert r == [t[0]] + ReplaceNbsp(t[1..]);
        assert IsPrefix(w, r) ==> w[1..] == r[1..][..|w| - 1];
        ReplaceNbspPrefix(w[1..], t[1..]);
        assert IsPrefix(w[1..], t[1..]) ==> t[..|w|] == [t[0]] + t[1..][..|w| - 1];
      }
    }
  }

  /** No `&nbsp;` survives the second pass, not even one assembled from the
      pieces around a replaced entity. */
  lemma {:induction false} ReplaceNbspLeavesNone(s: string)
    ensures !Contains(ReplaceNbsp(s), Nbsp)
    decreases |s|
  {
    if |s| > 0 {
      if IsPrefix(Nbsp, s) {
        ReplaceNbspLeavesNone(s[6..]);
        assert ReplaceNbsp(s) == [' '] + ReplaceNbsp(s[6..]);
        ContainsCons(' ', ReplaceNbsp(s[6..]), Nbsp);
      } else {
        ReplaceNbspLeavesNone(s[1..]);
        NoNbspAfterChar(s);
      }
    }
  }

  /** The step of `ReplaceNbspLeavesNone` for text that does not open with the
      entity: the kept first character cannot start a new one. */
  lemma NoNbspAfterChar(s: string)
    requires |s| > 0 && !IsPrefix(Nbsp, s)
    requires !Contains(ReplaceNbsp(s[1..]), Nbsp)
    ensures !Contains(ReplaceNbsp(s), Nbsp)
  {
    assert ReplaceNbsp(s) == [s[0]] + ReplaceNbsp(s[1..]);
    NbspTailIsWord();
    ReplaceNbspPrefix(Nbsp[1..], s[1..]);
    PrefixOfKeptHead(ReplaceNbsp(s), s, Nbsp);
  }

  lemma NbspTailIsWord()
    ensures NoSpace(Nbsp[1..])
  {
    assert Nbsp[1..] == ['n', 'b', 's', 'p', ';'];
  }

  /** When `r` and `s` share their first character and the tail of `r` starts
      with `w` minus its first character only if the tail of `s` does, then
      `r` starts with `w` only if `s` does. */
  lemma PrefixOfKeptHead(r: string, s: string, w: string)
    requires |r| > 0 && |s| > 0 && r[0] == s[0] && |w| > 0
    requires IsPrefix(w[1..], r[1..]) ==> IsPrefix(w[1..], s[1..])
    ensures IsPrefix(w, r) ==> IsPrefix(w, s)
  {
    if IsPrefix(w, r) {
      assert w[1..] == r[..|w|][1..] == r[1..][..|w| - 1];
      assert s[..|w|] == [s[0]] + s[1..][..|w| - 1];
      assert w == [w[0]] + w[1..];
    }
  }

  /** Text without `&nbsp;` passes through unchanged. */
  lemma {:induction false} ReplaceNbspOfClean(s: string)
    requires !Contains(s, Nbsp)
    ensures ReplaceNbsp(s) == s
    decreases |s|
  {
    if |s| > 0 {
      ReplaceNbspOfClean(s[1..]);
    }
  }

  // ---------------------------------------------------------------------------
  // Pass 3: whitespace runs
  // ---------------------------------------------------------------------------

  /** Every maximal whitespace run becomes a single plain space. */
  function Collapse(s: string): (r: string)
    ensures |r| <= |s|
    ensures |r| == 0 <==> |s| == 0
    decreases |s|
  {
    if |s| == 0 then ""
    else if IsSpace(s[0]) then " " + Collapse(TrimStart(s[1..]))
    else [s[0]] + Collapse(s[1..])
  }

  /** The collapse keeps the first character unless it is whitespace, which
      becomes a space. */
  lemma CollapseHead(s: string)
    requires |s| > 0
    ensures |Collapse(s)| > 0 && Collapse(s)[0] == (if IsSpace(s[0]) then ' ' else s[0])
  {
  }

  /** The collapse introduces no character but the space. */
  lemma {:induction false} CollapseOnlySpaces(s: string)
    ensures OnlySpacesAdded(s, Collapse(s))
    decreases |s|
  {
    if |s| > 0 {
      var r := Collapse(s);
      if IsSpace(s[0]) {
        var rest := TrimStart(s[1..]);
        CollapseOnlySpaces(rest);
        var x := Collapse(rest);
        assert r == [' '] + x;
        forall c | c in r && c != ' ' ensures c in s {
          assert c in x;
          assert c in rest;
          assert rest == s[|s| - |rest|..];
        }
      } else {
        CollapseOnlySpaces(s[1..]);
        var x := Collapse(s[1..]);
        assert r == [s[0]] + x;
        forall c | c in r && c != ' ' ensures c in s {
          if c != s[0] {
            assert c in x;
            assert c in s[1..];
          }
        }
      }
    }
  }

  /** After the collapse whitespace only appears as single plain spaces. */
  lemma {:induction false} CollapseSingleSpaced(s: string)
    ensures SingleSpaced(Collapse(s))
    decreases |s|
  {
    if |s| > 0 {
      var r := Collapse(s);
      var rest := if IsSpace(s[0]) then TrimStart(s[1..]) else s[1..];
      CollapseSingleSpaced(rest);
      var x := Collapse(rest);
      assert r == [r[0]] + x;
      if IsSpace(s[0]) && |rest| > 0 {
        CollapseHead(rest);
      }
      forall i | 0 <= i < |r| && IsSpace(r[i]) ensures r[i] == ' ' {
        if i > 0 {
          assert r[i] == x[i - 1];
        }
      }
      forall i | 0 <= i < |r| - 1 ensures !(IsSpace(r[i]) && IsSpace(r[i + 1])) {
        if i > 0 {
          assert r[i] == x[i - 1] && r[i + 1] == x[i];
        }
      }
    }
  }

  /** The collapse cannot create a tag. */
  lemma {:induction false} CollapseKeepsTagFree(s: string)
    requires TagFree(s)
    ensures TagFree(Collapse(s))
    decreases |s|
  {
    if |s| > 0 {
      var r := Collapse(s);
      if IsSpace(s[0]) {
        var rest := TrimStart(s[1..]);
        TagFreeSuffix(s, |s| - |rest|);
        assert rest == s[|s| - |rest|..];
        CollapseKeepsTagFree(rest);
        TagFreeCons(' ', Collapse(rest));
        assert r == [' '] + Collapse(rest);
      } else {
        assert s == [s[0]] + s[1..];
        TagFreeCons(s[0], s[1..]);
        CollapseKeepsTagFree(s[1..]);
        CollapseOnlySpaces(s[1..]);
        var x := Collapse(s[1..]);
        assert '>' in x ==> '>' in s[1..];
        TagFreeCons(s[0], x);
        assert r == [s[0]] + x;
      }
    }
  }

  /** After the third pass whitespace only appears as single plain spaces; the
      pass introduces only spaces, keeps the first character unless it is
      whitespace, and cannot create a tag. */
  lemma CollapseShape(s: string)
    ensures OnlySpacesAdded(s, Collapse(s))
    ensures SingleSpaced(Collapse(s))
    ensures |s| > 0 ==> |Collapse(s)| > 0 && Collapse(s)[0] == (if IsSpace(s[0]) then ' ' else s[0])
    ensures TagFree(s) ==> TagFree(Collapse(s))
  {
    CollapseOnlySpaces(s);
    CollapseSingleSpaced(s);
    if |s| > 0 {
      CollapseHead(s);
    }
    if TagFree(s) {
      CollapseKeepsTagFree(s);
    }
  }

  /** A space-free prefix of the output was already a prefix of the input. */
  lemma {:induction false} CollapsePrefix(w: string, t: string)
    requires NoSpace(w)
    ensures IsPrefix(w, Collapse(t)) ==> IsPrefix(w, t)
    decreases |w|
  {
    var r := Collapse(t);
    if |w| > 0 && |t| > 0 {
      if IsSpace(t[0]) {
        assert r[0] == ' ' && !IsSpace(w[0]);
      } else {
        assert r == [t[0]] + Collapse(t[1..]);
        assert IsPrefix(w, r) ==> w[1..] == r[1..][..|w| - 1];
        CollapsePrefix(w[1..], t[1..]);
        assert IsPrefix(w[1..], t[1..]) ==> t[..|w|] == [t[0]] + t[1..][..|w| - 1];
      }
    }
  }

  /** Collapsing whitespace cannot create a word that was not in the input. */
  lemma {:induction false} CollapseAddsNoWord(w: string, t: string)
    requires |w| > 0 && NoSpace(w)
    ensures Contains(Collapse(t), w) ==> Contains(t, w)
    decreases |t|
  {
    if |t| > 0 {
      if IsSpace(t[0]) {
        CollapseAddsNoWord(w, TrimStart(t[1..]));
        NoWordAfterSpace(w, t);
      } else {
        CollapseAddsNoWord(w, t[1..]);
        NoWordAfterChar(w, t);
      }
    }
  }

  /** The step of `CollapseAddsNoWord` for text that starts with whitespace. */
  lemma NoWordAfterSpace(w: string, t: string)
    requires |w| > 0 && NoSpace(w) && |t| > 0 && IsSpace(t[0])
    requires Contains(Collapse(TrimStart(t[1..])), w) ==> Contains(TrimStart(t[1..]), w)
    ensures Contains(Collapse(t), w) ==> Contains(t, w)
  {
    var rest := TrimStart(t[1..]);
    var c := Collapse(rest);
    assert Collapse(t) == [' '] + c;
    assert w[0] != ' ';
    ContainsCons(' ', c, w);
    ContainsAfterTrimStart(t[1..], w);
  }

  /** A word found after the leading whitespace is dropped is in the text. */
  lemma ContainsAfterTrimStart(s: string, w: string)
    ensures Contains(TrimStart(s), w) ==> Contains(s, w)
    decreases |s|
  {
    if |s| > 0 && IsSpace(s[0]) {
      ContainsAfterTrimStart(s[1..], w);
    }
  }

  /** The step of `CollapseAddsNoWord` for text that starts with a visible
      character. */
  lemma NoWordAfterChar(w: string, t: string)
    requires |w| > 0 && NoSpace(w) && |t| > 0 && !IsSpace(t[0])
    requires Contains(Collapse(t[1..]), w) ==> Contains(t[1..], w)
    ensures Contains(Collapse(t), w) ==> Contains(t, w)
  {
    assert Collapse(t)[1..] == Collapse(t[1..]);
    CollapsePrefix(w, t);
  }

  /** Text that is already single-spaced passes through unchanged. */
  lemma {:induction false} CollapseOfSingleSpaced(s: string)
    requires SingleSpaced(s)
    ensures Collapse(s) == s
    decreases |s|
  {
    if |s| > 0 {
      assert SingleSpaced(s[1..]);
      if IsSpace(s[0]) {
        assert |s| > 1 ==> !IsSpace(s[1..][0]);
        assert TrimStart(s[1..]) == s[1..];
      }
      CollapseOfSingleSpaced(s[1..]);
    }
  }

  // ---------------------------------------------------------------------------
  // Pass 4 and the whole pipeline
  // ---------------------------------------------------------------------------

  lemma SingleSpacedSlice(s: string, a: nat, b: nat)
    requires a <= b <= |s|
    ensures SingleSpaced(s) ==> SingleSpaced(s[a..b])
  {
    if SingleSpaced(s) {
      var r := s[a..b];
      forall i | 0 <= i < |r| && IsSpace(r[i]) ensures r[i] == ' ' {
        assert r[i] == s[a + i];
      }
      forall i | 0 <= i < |r| - 1 ensures !(IsSpace(r[i]) && IsSpace(r[i + 1])) {
        assert r[i] == s[a + i] && r[i + 1] == s[a + i + 1];
      }
    }
  }

  /** Trimming keeps the guarantees of the earlier passes, since it only cuts
      whitespace off the ends. */
  lemma TrimKeepsShape(v: string, w: string)
    ensures SingleSpaced(v) ==> SingleSpaced(Trim(v))
    ensures TagFree(v) ==> TagFree(Trim(v))
    ensures Contains(Trim(v), w) ==> Contains(v, w)
  {
    TrimKeepsSingleSpaced(v);
    TrimKeepsTagFree(v);
    TrimAddsNoWord(v, w);
  }

  lemma TrimKeepsSingleSpaced(v: string)
    ensures SingleSpaced(v) ==> SingleSpaced(Trim(v))
  {
    var a := TrimIsSlice(v);
    SingleSpacedSlice(v, a, a + |Trim(v)|);
  }

  lemma TrimKeepsTagFree(v: string)
    ensures TagFree(v) ==> TagFree(Trim(v))
  {
    var a := TrimIsSlice(v);
    TagFreeSlice(v, a, a + |Trim(v)|);
  }

  lemma TrimAddsNoWord(v: string, w: string)
    ensures Contains(Trim(v), w) ==> Contains(v, w)
  {
    var a := TrimIsSlice(v);
    var m := Trim(v);
    if Contains(m, w) {
      ContainsOfSlice(v, a, a + |m|, w);
    }
  }

  lemma TagFreeSlice(s: string, a: nat, b: nat)
    requires a <= b <= |s|
    ensures TagFree(s) ==> TagFree(s[a..b])
  {
    if TagFree(s) {
      var r := s[a..b];
      forall i, j | 0 <= i < j < |r| && r[i] == '<' ensures r[j] != '>' {
        assert r[i] == s[a + i] && r[j] == s[a + j];
      }
    }
  }

  /** `stripHtml`: the empty (or absent) fragment gives the empty string;
      otherwise the result is trimmed, single-spaced, holds no tag and no
      `&nbsp;`. */
  function StripHtml(html: string): (r: string)
    ensures html == "" ==> r == ""
    ensures IsTrimmed(r)
    ensures |r| <= |html|
  {
    if |html| == 0 then ""
    else Trim(Collapse(ReplaceNbsp(ReplaceTags(html))))
  }

  lemma StripHtmlShape(html: string)
    ensures html == "" ==> StripHtml(html) == ""
    ensures Normalized(StripHtml(html))
  {
    if |html| > 0 {
      var t := ReplaceTags(html);
      ReplaceTagsShape(html);
      var u := ReplaceNbsp(t);
      ReplaceNbspShape(t);
      ReplaceNbspLeavesNone(t);
      assert TagFree(u) && !Contains(u, Nbsp);
      var v := Collapse(u);
      CollapseShape(u);
      NbspIsWord();
      CollapseAddsNoWord(Nbsp, u);
      assert SingleSpaced(v) && TagFree(v) && !Contains(v, Nbsp);
      TrimKeepsShape(v, Nbsp);
      assert StripHtml(html) == Trim(v);
    }
  }

  /** Text that already has the shape of a `stripHtml` result is returned
      unchanged. */
  lemma StripHtmlOfNormalized(s: string)
    requires Normalized(s)
    ensures StripHtml(s) == s
  {
    if |s| > 0 {
      ReplaceTagsOfTagFree(s);
      ReplaceNbspOfClean(s);
      CollapseOfSingleSpaced(s);
      TrimOfTrimmed(s);
    }
  }

  /** Stripping twice is stripping once. */
  lemma StripHtmlIdempotent(html: string)
    ensures StripHtml(StripHtml(html)) == StripHtml(html)
  {
    StripHtmlShape(html);
    StripHtmlOfNormalized(StripHtml(html));
  }

  // ---------------------------------------------------------------------------
  // The words of a text survive the last two passes
  // ---------------------------------------------------------------------------

  /** The whitespace-separated words of `s`: its maximal runs of
      non-whitespace characters, in order. */
  function Words(s: string): (ws: seq<string>)
    ensures forall k :: 0 <= k < |ws| ==> |ws[k]| > 0 && NoSpace(ws[k])
    ensures |s| > 0 && !IsSpace(s[0]) ==> |ws| > 0 && ws[0][0] == s[0]
    decreases |s|
  {
    if |s| == 0 then []
    else if IsSpace(s[0]) then Words(s[1..])
    else
      var rest := Words(s[1..]);
      if |s| > 1 && !IsSpace(s[1]) then
        var w := [s[0]] + rest[0];
        assert NoSpace(w) by {
          forall i | 0 < i < |w| ensures !IsSpace(w[i]) {
            assert w[i] == rest[0][i - 1];
          }
        }
        [w] + rest[1..]
      else
        [[s[0]]] + rest
  }

  lemma {:induction false} WordsOfAllSpace(s: string)
    requires AllSpace(s)
    ensures Words(s) == []
    decreases |s|
  {
    if |s| > 0 {
      assert AllSpace(s[1..]) by {
        forall i | 0 <= i < |s| - 1 ensures IsSpace(s[1..][i]) {
          assert s[1..][i] == s[i + 1];
        }
      }
      WordsOfAllSpace(s[1..]);
    }
  }

  /** Leading whitespace holds no word. */
  lemma {:induction false} WordsTrimStart(s: string)
    ensures Words(TrimStart(s)) == Words(s)
    decreases |s|
  {
    if |s| > 0 && IsSpace(s[0]) {
      WordsTrimStart(s[1..]);
    }
  }

  /** Trailing whitespace holds no word. */
  lemma {:induction false} WordsSpaceSuffix(r: string, sp: string)
    requires AllSpace(sp)
    ensures Words(r + sp) == Words(r)
    decreases |r|
  {
    if |r| == 0 {
      assert r + sp == sp;
      WordsOfAllSpace(sp);
    } else {
      var t := r + sp;
      assert t[0] == r[0] && t[1..] == r[1..] + sp;
      WordsSpaceSuffix(r[1..], sp);
      if !IsSpace(r[0]) {
        if |r| > 1 {
          assert t[1] == r[1];
        } else if |sp| > 0 {
          assert t[1] == sp[0];
        }
      }
    }
  }

  lemma WordsTrim(s: string)
    ensures Words(Trim(s)) == Words(s)
  {
    WordsTrimStart(s);
    WordsTrimEnd(TrimStart(s));
  }

  lemma WordsTrimEnd(t: string)
    ensures Words(TrimEnd(t)) == Words(t)
  {
    var r := TrimEnd(t);
    var sp := t[|r|..];
    assert t == r + sp;
    WordsSpaceSuffix(r, sp);
  }

  /** Collapsing whitespace runs keeps every word and the order of the
      words. */
  lemma {:induction false} CollapseKeepsWords(s: string)
    ensures Words(Collapse(s)) == Words(s)
    decreases |s|
  {
    if |s| > 0 {
      var c := Collapse(s);
      if IsSpace(s[0]) {
        var u := TrimStart(s[1..]);
        CollapseKeepsWords(u);
        WordsTrimStart(s[1..]);
        assert c == " " + Collapse(u);
        assert c[1..] == Collapse(u);
      } else {
        CollapseKeepsWords(s[1..]);
        assert c == [s[0]] + Collapse(s[1..]);
        assert c[0] == s[0] && c[1..] == Collapse(s[1..]);
        if |s| > 1 {
          CollapseHead(s[1..]);
          assert c[1] == Collapse(s[1..])[0];
        }
      }
    }
  }

  /** `stripHtml` yields exactly the words of the fragment once its tags and
      `&nbsp;` entities are replaced by spaces: the whitespace passes lose
      no word, join no two words and split none. */
  lemma StripHtmlKeepsWords(html: string)
    ensures Words(StripHtml(html)) == Words(ReplaceNbsp(ReplaceTags(html)))
  {
    if |html| > 0 {
      var u := ReplaceNbsp(ReplaceTags(html));
      CollapseKeepsWords(u);
      WordsTrim(Collapse(u));
    }
  }

  // ---------------------------------------------------------------------------
  // Plain text passes through each pass
  // ---------------------------------------------------------------------------

  /** Text without `<` is copied by the tag pass. */
  lemma {:induction false} ReplaceTagsPlainPrefix(w: string, t: string)
    requires '<' !in w
    ensures ReplaceTags(w + t) == w + ReplaceTags(t)
    decreases |w|
  {
    if |w| > 0 {
      var s := w + t;
      assert s[0] == w[0] && s[1..] == w[1..] + t;
      assert ReplaceTags(s) == [s[0]] + ReplaceTags(s[1..]);
      ReplaceTagsPlainPrefix(w[1..], t);
      HeadThenRest(w, ReplaceTags(t));
    } else {
      assert w + t == t;
    }
  }

  lemma HeadThenRest(w: string, r: string)
    requires |w| > 0
    ensures [w[0]] + (w[1..] + r) == w + r
  {
    assert w == [w[0]] + w[1..];
  }

  /** Text without `&` is copied by the `&nbsp;` pass. */
  lemma {:induction false} ReplaceNbspPlainPrefix(w: string, t: string)
    requires '&' !in w
    ensures ReplaceNbsp(w + t) == w + ReplaceNbsp(t)
    decreases |w|
  {
    if |w| > 0 {
      var s := w + t;
      assert s[0] == w[0] && s[1..] == w[1..] + t;
      assert w[0] in w;
      NoNbspAtPlainChar(s);
      assert ReplaceNbsp(s) == [s[0]] + ReplaceNbsp(s[1..]);
      ReplaceNbspPlainPrefix(w[1..], t);
      var r := ReplaceNbsp(s);
      assert r == [r[0]] + r[1..];
      assert w == [w[0]] + w[1..];
    } else {
      assert w + t == t;
    }
  }

  /** A complete tag after `<`-free text becomes one space, and the pass goes
      on with the text after the tag's first `>`; `x` may hold further `<`. */
  lemma ReplaceTagsTag(w: string, x: string, t: string)
    requires '<' !in w && '>' !in x
    ensures ReplaceTags(w + "<" + x + ">" + t) == w + " " + ReplaceTags(t)
  {
    TagAfterText(w, x, t);
    LeadingTag(x, t);
    ReplaceTagsPlainPrefix(w, "<" + x + ">" + t);
    ConcatAssoc(w, " ", ReplaceTags(t));
  }

  lemma ConcatAssoc(a: string, b: string, c: string)
    ensures a + b + c == a + (b + c)
  {
  }

  lemma TagAfterText(w: string, x: string, t: string)
    ensures w + "<" + x + ">" + t == w + ("<" + x + ">" + t)
  {
  }

  /** Text that opens with a complete tag starts with one space in its place. */
  lemma LeadingTag(x: string, t: string)
    requires '>' !in x
    ensures ReplaceTags("<" + x + ">" + t) == " " + ReplaceTags(t)
  {
    var s := "<" + x + ">" + t;
    FirstCloseAfterTag(x, t);
    assert s[|x| + 2..] == t;
  }

  /** The tag opened at index 0 ends at the first `>`, right after `x`. */
  lemma FirstCloseAfterTag(x: string, t: string)
    requires '>' !in x
    ensures var s := "<" + x + ">" + t;
      '>' in s && IndexOf(s, '>') == |x| + 1
  {
    var s := "<" + x + ">" + t;
    assert s[..|x| + 1] == "<" + x;
    IndexOfIsFirst(s, '>', |x| + 1);
  }

  /** `IndexOf` finds the first occurrence: any `k` holding `c` with no `c`
      before it is the index. */
  lemma {:induction false} IndexOfIsFirst(s: string, c: char, k: nat)
    requires k < |s| && s[k] == c && c !in s[..k]
    ensures c in s && IndexOf(s, c) == k
    decreases k
  {
    if k > 0 {
      assert s[0] == s[..k][0];
      assert s[1..][..k - 1] == s[1..k] && s[1..k] == s[..k][1..];
      IndexOfIsFirst(s[1..], c, k - 1);
    }
  }

  /** An `&nbsp;` after `&`-free text becomes one space, and the pass goes on
      with the text after the entity. */
  lemma ReplaceNbspEntity(w: string, t: string)
    requires '&' !in w
    ensures ReplaceNbsp(w + Nbsp + t) == w + " " + ReplaceNbsp(t)
  {
    var s := Nbsp + t;
    assert IsPrefix(Nbsp, s) && s[6..] == t;
    assert ReplaceNbsp(s) == " " + ReplaceNbsp(t);
    ReplaceNbspPlainPrefix(w, s);
    assert w + Nbsp + t == w + s;
  }

  /** Text that does not start with `&` does not start with `&nbsp;`. */
  lemma NoNbspAtPlainChar(s: string)
    requires |s| > 0 && s[0] != '&'
    ensures !IsPrefix(Nbsp, s)
  {
    assert |Nbsp| > 0 && Nbsp[0] == '&';
    if |Nbsp| <= |s| {
      assert s[..|Nbsp|][0] == s[0];
    }
  }

  // ---------------------------------------------------------------------------
  // The worked example
  // ---------------------------------------------------------------------------

  /** Tag-free text between two complete tags becomes that text between two
      spaces. */
  lemma BetweenTags(x: string, w: string, y: string)
    requires '>' !in x && '<' !in w && '>' !in y
    ensures ReplaceTags("<" + x + ">" + w + "<" + y + ">") == " " + w + " "
  {
    TwoTagsShape(x, w, y);
    LeadingTag(x, w + "<" + y + ">");
    ClosingTag(w, y);
    ConcatAssoc(" ", w, " ");
  }

  lemma TwoTagsShape(x: string, w: string, y: string)
    ensures "<" + x + ">" + w + "<" + y + ">" == "<" + x + ">" + (w + "<" + y + ">")
  {
  }

  /** Tag-free text followed by a complete tag becomes that text and a space. */
  lemma ClosingTag(w: string, y: string)
    requires '<' !in w && '>' !in y
    ensures ReplaceTags(w + "<" + y + ">") == w + " "
  {
    ReplaceTagsTag(w, y, []);
    AppendEmpty(w + "<" + y + ">");
    AppendEmpty(w + " ");
  }

  lemma AppendEmpty(a: string)
    ensures a + [] == a
  {
  }

  /** A paragraph of tag-free text becomes that text between two spaces. */
  lemma ParagraphTags(w: string)
    requires '<' !in w
    ensures ReplaceTags("<p>" + w + "</p>") == " " + w + " "
  {
    ParagraphShape(w);
    BetweenTags("p", w, "/p");
  }

  lemma ParagraphShape(w: string)
    ensures "<p>" + w + "</p>" == "<" + "p" + ">" + w + "<" + "/p" + ">"
  {
  }

  lemma ExampleNbsp(a: char, b: char)
    requires a != '&' && b != '&' && a != ' ' && b != ' '
    ensures ReplaceNbsp([' ', a] + Nbsp + [b, ' ']) == [' ', a, ' ', b, ' ']
  {
    ReplaceNbspEntity([' ', a], [b, ' ']);
    ReplaceNbspPlainPrefix([b, ' '], []);
    assert [b, ' '] + [] == [b, ' '];
  }

  lemma ExampleCollapse(a: char, b: char)
    requires !IsSpace(a) && !IsSpace(b)
    ensures Collapse([' ', a, ' ', b, ' ']) == [' ', a, ' ', b, ' ']
  {
    CollapseOfSingleSpaced([' ', a, ' ', b, ' ']);
  }

  lemma ExampleTrim(a: char, b: char)
    requires !IsSpace(a) && !IsSpace(b)
    ensures Trim([' ', a, ' ', b, ' ']) == [a, ' ', b]
  {
    var s := [' ', a, ' ', b, ' '];
    assert TrimStart(s) == TrimStart(s[1..]) && s[1..] == [a, ' ', b, ' '];
    assert TrimEnd([a, ' ', b, ' ']) == TrimEnd([a, ' ', b]);
  }

  /** Two words joined by `&nbsp;` inside a paragraph come out as the two
      words joined by one space. */
  lemma StripHtmlNbspParagraph(a: char, b: char, w: string)
    requires !IsSpace(a) && !IsSpace(b)
    requires a !in "<>&" && b !in "<>&"
    requires w == [a] + Nbsp + [b]
    ensures StripHtml("<p>" + w + "</p>") == [a, ' ', b]
  {
    var x := "<p>" + w + "</p>";
    ParagraphTags(w);
    var t := ReplaceTags(x);
    assert t == [' ', a] + Nbsp + [b, ' '];
    ExampleNbsp(a, b);
    var u := ReplaceNbsp(t);
    assert u == [' ', a, ' ', b, ' '];
    ExampleCollapse(a, b);
    ExampleTrim(a, b);
  }

  /** The worked example: a paragraph holding an `&nbsp;`. */
  lemma StripHtmlExample(html: string)
    requires html == "<p>A&nbsp;B</p>"
    ensures StripHtml(html) == "A B"
  {
    var w := "A&nbsp;B";
    assert w == ['A'] + Nbsp + ['B'];
    assert html == "<p>" + w + "</p>";
    StripHtmlNbspParagraph('A', 'B', w);
  }
}

=== FILE: options.dfy ===
/** An optional value: the model's `undefined`, as returned by `find`. */
module Options {

  datatype Option<T> = None | Some(value: T)
}

=== FILE: readtime.dfy ===
/** `estimateReadTime` (src/App.jsx): the plain text of a post is split on
    single spaces, the empty pieces are dropped, and the remaining words are
    read at 200 per minute, rounded up, with a floor of one minute. */
module ReadTime {
  import opened Strings
  import opened Html

  const WordsPerMinute: nat := 200

  // ---------------------------------------------------------------------------
  // split(' ') and its inverse
  // ---------------------------------------------------------------------------

  /** `s.split(' ')`: the pieces between consecutive spaces, in order; the
      empty string splits into one empty piece. */
  function Split(s: string): (r: seq<string>)
    ensures |r| >= 1
    ensures forall k :: 0 <= k < |r| ==> ' ' !in r[k]
    decreases |s|
  {
    if |s| == 0 then [""]
    else if s[0] == ' ' then [""] + Split(s[1..])
    else
      var rest := Split(s[1..]);
      [[s[0]] + rest[0]] + rest[1..]
  }

  /** `pieces.join(' ')`. */
  function Join(pieces: seq<string>): string
    decreases |pieces|
  {
    if |pieces| == 0 then ""
    else if |pieces| == 1 then pieces[0]
    else pieces[0] + " " + Join(pieces[1..])
  }

  /** Joining the pieces of a split gives back the original text. */
  lemma {:induction false} JoinSplit(s: string)
    ensures Join(Split(s)) == s
    decreases |s|
  {
    if |s| > 0 {
      JoinSplit(s[1..]);
      var rest := Split(s[1..]);
      if s[0] == ' ' {
        assert Split(s) == [""] + rest;
        assert (([""] + rest)[1..]) == rest;
        assert s == "" + " " + s[1..];
      } else {
        var r := Split(s);
        assert r == [[s[0]] + rest[0]] + rest[1..];
        if |rest| == 1 {
          assert s == [s[0]] + rest[0];
        } else {
          assert r[1..] == rest[1..];
          assert Join(rest) == rest[0] + " " + Join(rest[1..]);
          assert s == [s[0]] + s[1..];
        }
      }
    }
  }

  /** Splitting a join of space-free pieces gives back the pieces. */
  lemma {:induction false} SplitJoin(pieces: seq<string>)
    requires |pieces| >= 1
    requires forall k :: 0 <= k < |pieces| ==> ' ' !in pieces[k]
    ensures Split(Join(pieces)) == pieces
    decreases |pieces|, |pieces[0]|
  {
    var w := pieces[0];
    var rest := pieces[1..];
    assert pieces == [w] + rest;
    if |w| > 0 {
      var tail := [w[1..]] + rest;
      assert ' ' !in w[1..] by {
        forall c | c in w[1..] ensures c != ' ' {
          assert c in w;
        }
      }
      assert tail[0] == w[1..] && tail[1..] == rest;
      SplitJoin(tail);
      SplitJoinFirstChar(w, rest);
    } else if |pieces| > 1 {
      SplitJoin(rest);
      var s := Join(pieces);
      assert s == " " + Join(rest);
      assert s[1..] == Join(rest);
    }
  }

  /** One step of `SplitJoin`: a first piece that starts with a non-space
      character contributes that character to the first piece of the split. */
  lemma SplitJoinFirstChar(w: string, rest: seq<string>)
    requires |w| > 0 && ' ' !in w
    requires Split(Join([w[1..]] + rest)) == [w[1..]] + rest
    ensures Split(Join([w] + rest)) == [w] + rest
  {
    var tail := [w[1..]] + rest;
    JoinHead(w, rest);
    JoinHead(w[1..], rest);
    var s := Join([w] + rest);
    assert s == [w[0]] + Join(tail) by {
      assert w == [w[0]] + w[1..];
    }
    assert s[0] == w[0] && s[1..] == Join(tail);
    assert w[0] in w;
    assert tail[0] == w[1..] && tail[1..] == rest;
    assert Split(s) == [[w[0]] + w[1..]] + rest;
    assert [w[0]] + w[1..] == w;
  }

  /** The join with a first piece `w` is `w` followed by the join of the rest. */
  lemma JoinHead(w: string, rest: seq<string>)
    ensures Join([w] + rest) == if |rest| == 0 then w else w + " " + Join(rest)
  {
    var p := [w] + rest;
    assert p[0] == w;
    if |rest| > 0 {
      assert p[1..] == rest;
    }
  }

  // ---------------------------------------------------------------------------
  // word count and read time
  // ---------------------------------------------------------------------------

  /** `.filter(Boolean).length`: the number of non-empty pieces, that is,
      every piece except the empty ones. */
  function CountNonEmpty(pieces: seq<string>): (n: nat)
    ensures n <= |pieces|
    ensures n == |pieces| - multiset(pieces)[""]
    decreases |pieces|
  {
    if |pieces| == 0 then 0
    else
      assert pieces == [pieces[0]] + pieces[1..];
      assert multiset(pieces) == multiset{pieces[0]} + multiset(pieces[1..]);
      (if pieces[0] == "" then 0 else 1) + CountNonEmpty(pieces[1..])
  }

  /** The number of words `estimateReadTime` counts: never more than the
      characters of the text, and none exactly when the text is nothing but
      spaces. */
  function WordCount(text: string): (n: nat)
    ensures n <= |text|
    ensures n == 0 <==> forall i :: 0 <= i < |text| ==> text[i] == ' '
  {
    SplitCountBounds(text);
    CountNonEmpty(Split(text))
  }

  lemma {:induction false} SplitCountBounds(t: string)
    ensures CountNonEmpty(Split(t)) <= |t|
    ensures CountNonEmpty(Split(t)) == 0 <==> forall i :: 0 <= i < |t| ==> t[i] == ' '
    decreases |t|
  {
    if |t| > 0 {
      SplitCountBounds(t[1..]);
      SplitCountStep(t);
      assert (forall i :: 0 <= i < |t| ==> t[i] == ' ') <==>
             t[0] == ' ' && forall i :: 0 <= i < |t| - 1 ==> t[1..][i] == ' ' by {
        if t[0] == ' ' && forall i :: 0 <= i < |t| - 1 ==> t[1..][i] == ' ' {
          forall i | 0 < i < |t| ensures t[i] == ' ' {
            assert t[i] == t[1..][i - 1];
          }
        }
      }
    }
  }

  /** Splitting one more character ends one more word exactly when that
      character is not a space and a space or the end of the text follows. */
  lemma SplitCountStep(t: string)
    requires |t| > 0
    ensures CountNonEmpty(Split(t)) == CountNonEmpty(Split(t[1..]))
      + (if t[0] != ' ' && (|t| == 1 || t[1] == ' ') then 1 else 0)
  {
    var rest := Split(t[1..]);
    var sp := Split(t);
    assert rest[0] == "" <==> |t| == 1 || t[1] == ' ' by {
      if |t| > 1 {
        assert t[1..][0] == t[1];
      }
    }
    if t[0] == ' ' {
      assert sp == [""] + rest;
      assert sp[1..] == rest;
    } else {
      assert sp == [[t[0]] + rest[0]] + rest[1..];
      assert sp[0] != "" && sp[1..] == rest[1..];
      assert rest == [rest[0]] + rest[1..];
    }
  }

  /** `Math.max(1, Math.ceil(words / 200))`: the least whole number of minutes,
      at least one, in which `words` words can be read at 200 per minute. */
  function ReadMinutes(words: nat): (m: nat)
    ensures m >= 1
    ensures words <= WordsPerMinute * m
    ensures m == 1 || WordsPerMinute * (m - 1) < words
  {
    if words == 0 then 1 else (words + WordsPerMinute - 1) / WordsPerMinute
  }

  /** `estimateReadTime(html)`: at least one minute, and exactly the rounded-up
      reading time of the words of `stripHtml(html)`. */
  function EstimateReadTime(html: string): (m: nat)
    ensures m >= 1
    ensures WordCount(StripHtml(html)) <= WordsPerMinute * m
    ensures m == 1 || WordsPerMinute * (m - 1) < WordCount(StripHtml(html))
  {
    ReadMinutes(WordCount(StripHtml(html)))
  }

  /** On text whose only whitespace is the plain space, `split(' ')` with
      the empty pieces dropped counts exactly its words. */
  lemma {:induction false} SplitCountsWords(t: string)
    requires forall i :: 0 <= i < |t| && IsSpace(t[i]) ==> t[i] == ' '
    ensures CountNonEmpty(Split(t)) == |Words(t)|
    decreases |t|
  {
    if |t| > 0 {
      assert forall i :: 0 <= i < |t| - 1 && IsSpace(t[1..][i]) ==> t[1..][i] == ' ' by {
        forall i | 0 <= i < |t| - 1 ensures t[1..][i] == t[i + 1] { }
      }
      SplitCountsWords(t[1..]);
      SplitCountStep(t);
      assert IsSpace(t[0]) <==> t[0] == ' ';
      if |t| > 1 {
        assert IsSpace(t[1]) <==> t[1] == ' ';
      }
    }
  }

  /** `estimateReadTime` reads the whitespace-separated words of the
      fragment with its tags and `&nbsp;` entities replaced by spaces. */
  lemma ReadTimeCountsWords(html: string)
    ensures WordCount(StripHtml(html)) == |Words(ReplaceNbsp(ReplaceTags(html)))|
    ensures EstimateReadTime(html) == ReadMinutes(|Words(ReplaceNbsp(ReplaceTags(html)))|)
  {
    StripHtmlShape(html);
    SplitCountsWords(StripHtml(html));
    StripHtmlKeepsWords(html);
  }

  // ---------------------------------------------------------------------------
  // Text made of plain words
  // ---------------------------------------------------------------------------

  /** A word that holds no whitespace and no character the stripping passes
      act on. */
  predicate PlainWord(w: string) {
    |w| > 0 && forall i :: 0 <= i < |w| ==> !IsSpace(w[i]) && w[i] != '<' && w[i] != '&'
  }

  predicate AllPlain(ws: seq<string>) {
    forall k :: 0 <= k < |ws| ==> PlainWord(ws[k])
  }

  /** Characters of a join of plain words: single spaces between words, and
      neither end is a space. */
  lemma {:induction false} JoinOfPlainShape(ws: seq<string>)
    requires |ws| >= 1 && AllPlain(ws)
    ensures var s := Join(ws);
      && |s| > 0 && s[0] != ' ' && s[|s| - 1] != ' '
      && (forall i :: 0 <= i < |s| ==> s[i] == ' ' || (!IsSpace(s[i]) && s[i] != '<' && s[i] != '&'))
      && (forall i :: 0 <= i < |s| - 1 ==> s[i] != ' ' || s[i + 1] != ' ')
    decreases |ws|
  {
    var w := ws[0];
    assert PlainWord(w);
    if |ws| > 1 {
      JoinOfPlainShape(ws[1..]);
      var t := Join(ws[1..]);
      var s := Join(ws);
      assert s == w + " " + t;
      forall i | 0 <= i < |s| ensures s[i] == ' ' || (!IsSpace(s[i]) && s[i] != '<' && s[i] != '&') {
        if i < |w| {
          assert s[i] == w[i];
        } else if i > |w| {
          assert s[i] == t[i - |w| - 1];
        }
      }
      forall i | 0 <= i < |s| - 1 ensures s[i] != ' ' || s[i + 1] != ' ' {
        if i < |w| - 1 {
          assert s[i] == w[i];
        } else if i == |w| - 1 {
          assert s[i] == w[i];
        } else if i == |w| {
          assert s[i + 1] == t[0];
        } else {
          assert s[i] == t[i - |w| - 1] && s[i + 1] == t[i - |w|];
        }
      }
    }
  }

  lemma {:induction false} NoAmpersandNoNbsp(s: string)
    requires '&' !in s
    ensures !Contains(s, Nbsp)
    decreases |s|
  {
    if |s| > 0 {
      assert s[0] != '&';
      assert '&' !in s[1..] by {
        forall c | c in s[1..] ensures c in s { }
      }
      NoAmpersandNoNbsp(s[1..]);
    }
  }

  /** A join of plain words already has the shape of stripped text. */
  lemma JoinOfPlainNormalized(ws: seq<string>)
    requires |ws| >= 1 && AllPlain(ws)
    ensures Normalized(Join(ws))
  {
    JoinOfPlainShape(ws);
    var s := Join(ws);
    assert '&' !in s;
    NoAmpersandNoNbsp(s);
  }

  /** A join of plain words has one word per piece. */
  lemma WordCountOfPlain(ws: seq<string>)
    requires AllPlain(ws)
    ensures WordCount(Join(ws)) == |ws|
  {
    if |ws| > 0 {
      forall k | 0 <= k < |ws| ensures ' ' !in ws[k] {
        assert PlainWord(ws[k]);
      }
      SplitJoin(ws);
      CountAllNonEmpty(ws);
    }
  }

  lemma {:induction false} CountAllNonEmpty(ws: seq<string>)
    requires forall k :: 0 <= k < |ws| ==> ws[k] != ""
    ensures CountNonEmpty(ws) == |ws|
    decreases |ws|
  {
    if |ws| > 0 {
      CountAllNonEmpty(ws[1..]);
    }
  }

  /** Padding single-spaced, trimmed text with one space on each side keeps
      it single-spaced. */
  lemma PaddedSingleSpaced(j: string)
    requires |j| > 0 && IsTrimmed(j) && SingleSpaced(j)
    ensures SingleSpaced(" " + j + " ")
  {
    var t := " " + j + " ";
    forall i | 0 <= i < |t| && IsSpace(t[i]) ensures t[i] == ' ' {
      if 0 < i < |t| - 1 {
        assert t[i] == j[i - 1];
      }
    }
    forall i | 0 <= i < |t| - 1 ensures !(IsSpace(t[i]) && IsSpace(t[i + 1])) {
      if i == 0 {
        assert t[1] == j[0];
      } else if i == |t| - 2 {
        assert t[i] == j[|j| - 1];
      } else {
        assert t[i] == j[i - 1] && t[i + 1] == j[i];
      }
    }
  }

  lemma TrimPadded(j: string)
    requires |j| > 0 && IsTrimmed(j)
    ensures Trim(" " + j + " ") == j
  {
    var t := " " + j + " ";
    assert t[1..] == j + " ";
    assert TrimStart(t) == TrimStart(j + " ");
    assert (j + " ")[0] == j[0];
    assert TrimStart(j + " ") == j + " ";
    assert (j + " ")[..|j|] == j;
    assert TrimEnd(j + " ") == TrimEnd(j);
    TrimOfTrimmed(j);
  }

  /** The last three passes turn space-padded plain text back into itself. */
  lemma PaddedPasses(j: string)
    requires |j| > 0 && IsTrimmed(j) && SingleSpaced(j) && '&' !in j
    ensures Trim(Collapse(ReplaceNbsp(" " + j + " "))) == j
  {
    var t := " " + j + " ";
    assert '&' !in t;
    NoAmpersandNoNbsp(t);
    ReplaceNbspOfClean(t);
    PaddedSingleSpaced(j);
    CollapseOfSingleSpaced(t);
    TrimPadded(j);
  }

  /** A paragraph of plain words strips to the words joined by single spaces. */
  lemma StripHtmlOfParagraph(ws: seq<string>)
    requires |ws| >= 1 && AllPlain(ws)
    ensures StripHtml("<p>" + Join(ws) + "</p>") == Join(ws)
  {
    var j := Join(ws);
    JoinOfPlainShape(ws);
    JoinOfPlainNormalized(ws);
    assert '<' !in j && '&' !in j;
    ParagraphTags(j);
    PaddedPasses(j);
  }

  /** A paragraph of `n` plain words takes `max(1, ceil(n / 200))` minutes. */
  lemma ReadTimeOfParagraph(ws: seq<string>)
    requires |ws| >= 1 && AllPlain(ws)
    ensures EstimateReadTime("<p>" + Join(ws) + "</p>") == ReadMinutes(|ws|)
  {
    StripHtmlOfParagraph(ws);
    WordCountOfPlain(ws);
  }

  // ---------------------------------------------------------------------------
  // Worked examples
  // ---------------------------------------------------------------------------

  /** Empty content reads in one minute. */
  lemma ReadTimeOfEmpty(html: string)
    requires html == ""
    ensures EstimateReadTime(html) == 1
  {
    assert StripHtml(html) == "";
    assert Split("") == [""];
  }

  /** `<p>one two three</p>` has three words and reads in one minute. */
  lemma ReadTimeOfThreeWords(html: string)
    requires html == "<p>one two three</p>"
    ensures WordCount(StripHtml(html)) == 3
    ensures EstimateReadTime(html) == 1
  {
    var ws := ThreeWords();
    assert html == "<p>" + Join(ws) + "</p>";
    StripHtmlOfParagraph(ws);
    WordCountOfPlain(ws);
    ReadTimeOfParagraph(ws);
  }

  lemma ThreeWords() returns (ws: seq<string>)
    ensures |ws| == 3 && AllPlain(ws) && Join(ws) == "one two three"
  {
    ws := ["one", "two", "three"];
    assert PlainWord(ws[0]) && PlainWord(ws[1]) && PlainWord(ws[2]);
    assert Join(ws[2..]) == "three";
    assert Join(ws[1..]) == "two" + " " + "three";
  }

  /** A paragraph of 250 words reads in two minutes. */
  lemma ReadTimeOf250Words(w: string)
    requires PlainWord(w)
    ensures EstimateReadTime("<p>" + Join(seq(250, _ => w)) + "</p>") == 2
  {
    var ws := seq(250, _ => w);
    ReadTimeOfParagraph(ws);
  }
}

=== FILE: store.dfy ===
/** The in-memory content store of the `App` component (src/App.jsx): the
    post list, the comment lists keyed by post id, and the pure updates the
    component hands to its `setPosts` / `setCommentsByPost` setters. */
module Store {
  import opened Options
  import opened Strings
  import opened Decimal
  import opened Html
  import opened ReadTime

  /** A post record; `createdAt` is an opaque timestamp. */
  datatype Post = Post(
    id: string,
    title: string,
    content: string,
    authorId: string,
    authorName: string,
    authorPhotoURL: string,
    createdAt: int,
    estimatedReadTime: nat,
    viewCount: nat,
    claps: seq<string>)

  datatype Comment = Comment(
    id: string,
    postId: string,
    userId: string,
    userName: string,
    userPhotoURL: string,
    text: string,
    createdAt: int)

  /** `commentsByPost`: post id to that post's comments, oldest first. */
  type CommentMap = map<string, seq<Comment>>

  // ---------------------------------------------------------------------------
  // Identifiers
  // ---------------------------------------------------------------------------

  /** A one-letter prefix followed by a sequence number, as in `p${n}`. */
  function SerialId(prefix: char, n: nat): string {
    [prefix] + NatToString(n)
  }

  function PostId(n: nat): string {
    SerialId('p', n)
  }

  function CommentId(n: nat): string {
    SerialId('c', n)
  }

  /** The number is recoverable from the identifier. */
  lemma SerialIdRoundTrip(prefix: char, n: nat)
    ensures |SerialId(prefix, n)| >= 2 && SerialId(prefix, n)[0] == prefix
    ensures ParseDecimal(SerialId(prefix, n)[1..]) == n
  {
    assert SerialId(prefix, n)[1..] == NatToString(n);
    ParseNatToString(n);
  }

  /** Distinct sequence numbers give distinct identifiers. */
  lemma SerialIdInjective(prefix: char, m: nat, n: nat)
    requires m != n
    ensures SerialId(prefix, m) != SerialId(prefix, n)
  {
    SerialIdRoundTrip(prefix, m);
    SerialIdRoundTrip(prefix, n);
  }

  // ---------------------------------------------------------------------------
  // Lookup: `posts.find((p) => p.id === id)`
  // ---------------------------------------------------------------------------

  predicate HasPost(posts: seq<Post>, id: string) {
    exists i :: 0 <= i < |posts| && posts[i].id == id
  }

  /** The first post with the given id, or `None` where `find` gives
      `undefined`. */
  function FindPost(posts: seq<Post>, id: string): (r: Option<Post>)
    ensures r.None? <==> !HasPost(posts, id)
    ensures r.Some? ==> exists i :: 0 <= i < |posts| && posts[i] == r.value && r.value.id == id
                                    && forall j :: 0 <= j < i ==> posts[j].id != id
    decreases |posts|
  {
    if |posts| == 0 then None
    else if posts[0].id == id then Some(posts[0])
    else
      var r := FindPost(posts[1..], id);
      assert HasPost(posts, id) ==> HasPost(posts[1..], id) by {
        if HasPost(posts, id) {
          var i :| 0 <= i < |posts| && posts[i].id == id;
          assert posts[1..][i - 1].id == id;
        }
      }
      assert r.Some? ==> exists i :: 0 <= i < |posts| && posts[i] == r.value && r.value.id == id
                                     && forall j :: 0 <= j < i ==> posts[j].id != id by {
        if r.Some? {
          var k :| 0 <= k < |posts| - 1 && posts[1..][k] == r.value && r.value.id == id
                   && forall j :: 0 <= j < k ==> posts[1..][j].id != id;
          assert posts[k + 1] == r.value;
          assert forall j :: 0 <= j < k + 1 ==> posts[j].id != id by {
            forall j | 0 <= j < k + 1 ensures posts[j].id != id {
              if j > 0 {
                assert posts[j] == posts[1..][j - 1];
              }
            }
          }
        }
      }
      r
  }

  /** Where ids are distinct, `FindPost` gives the post at any index holding
      the id. */
  lemma FindPostUnique(posts: seq<Post>, i: nat)
    requires DistinctIds(posts)
    requires i < |posts|
    ensures FindPost(posts, posts[i].id) == Some(posts[i])
  {
    var r := FindPost(posts, posts[i].id);
    var k :| 0 <= k < |posts| && posts[k] == r.value && r.value.id == posts[i].id
             && forall j :: 0 <= j < k ==> posts[j].id != posts[i].id;
    assert k == i;
  }

  // ---------------------------------------------------------------------------
  // Post ids
  // ---------------------------------------------------------------------------

  /** Ids as `addPost` hands them out: the newest post (at the head) is
      `p<length>`, the oldest is `p1`. */
  predicate SequentialIds(posts: seq<Post>) {
    forall i :: 0 <= i < |posts| ==> posts[i].id == PostId(|posts| - i)
  }

  predicate DistinctIds(posts: seq<Post>) {
    forall i, j :: 0 <= i < j < |posts| ==> posts[i].id != posts[j].id
  }

  lemma SequentialIdsDistinct(posts: seq<Post>)
    requires SequentialIds(posts)
    ensures DistinctIds(posts)
  {
    forall i, j | 0 <= i < j < |posts| ensures posts[i].id != posts[j].id {
      SerialIdInjective('p', |posts| - i, |posts| - j);
    }
  }

  // ---------------------------------------------------------------------------
  // addPost
  // ---------------------------------------------------------------------------

  /** `addPost`: the draft, stamped with id `p<n+1>`, goes in front of the
      `n` existing posts; every other field of the draft is kept. */
  function AddPost(posts: seq<Post>, draft: Post): (r: seq<Post>)
    ensures |r| == |posts| + 1
    ensures r[0].id == PostId(|posts| + 1) && r[0].(id := draft.id) == draft
    ensures r[1..] == posts
  {
    [draft.(id := PostId(|posts| + 1))] + posts
  }

  /** `addPost` keeps ids sequential, hence distinct. */
  lemma AddPostKeepsSequentialIds(posts: seq<Post>, draft: Post)
    requires SequentialIds(posts)
    ensures SequentialIds(AddPost(posts, draft))
  {
    var r := AddPost(posts, draft);
    forall i | 0 <= i < |r| ensures r[i].id == PostId(|r| - i) {
      if i > 0 {
        assert r[i] == posts[i - 1];
      }
    }
  }

  /** After `addPost` the new id resolves to the new post and every other id
      resolves as before; with sequential ids the new id was unused. */
  lemma AddPostLookup(posts: seq<Post>, draft: Post, id: string)
    ensures var r := AddPost(posts, draft);
            FindPost(r, id) == if id == PostId(|posts| + 1) then Some(r[0]) else FindPost(posts, id)
    ensures SequentialIds(posts) ==> !HasPost(posts, PostId(|posts| + 1))
  {
    var r := AddPost(posts, draft);
    if id != PostId(|posts| + 1) {
      assert r[1..] == posts;
    }
    if SequentialIds(posts) {
      forall i | 0 <= i < |posts| ensures posts[i].id != PostId(|posts| + 1) {
        SerialIdInjective('p', |posts| - i, |posts| + 1);
      }
    }
  }

  // ---------------------------------------------------------------------------
  // addComment
  // ---------------------------------------------------------------------------

  /** `commentsByPost[postId] || []`: a post nobody has commented on yet
      has no list, and reads as an empty thread. */
  function CommentsOf(m: CommentMap, postId: string): (r: seq<Comment>)
    ensures postId !in m ==> r == []
    ensures postId in m ==> r == m[postId]
  {
    if postId in m then m[postId] else []
  }

  /** `addComment`: appends the comment to its post's list (a missing list
      counts as empty), numbering it `c<k>` after its 1-based position; no
      other list changes. */
  function AddComment(m: CommentMap, postId: string, c: Comment): (r: CommentMap)
    ensures r.Keys == m.Keys + {postId}
    ensures var before, after := CommentsOf(m, postId), CommentsOf(r, postId);
            && |after| == |before| + 1
            && after[..|before|] == before
            && after[|before|] == c.(id := CommentId(|after|))
    ensures forall k :: k != postId ==> CommentsOf(r, k) == CommentsOf(m, k)
  {
    var before := CommentsOf(m, postId);
    m[postId := before + [c.(id := CommentId(|before| + 1))]]
  }

  /** A post's comment list as `addComment` builds it: the `j`-th comment
      (0-based) is `c<j+1>` and names the post it is filed under. */
  predicate WellFormedList(postId: string, cs: seq<Comment>) {
    forall j :: 0 <= j < |cs| ==> cs[j].id == CommentId(j + 1) && cs[j].postId == postId
  }

  /** Every list belongs to an existing post and is well formed. */
  predicate CommentsWellFormed(posts: seq<Post>, m: CommentMap) {
    forall k :: k in m ==> HasPost(posts, k) && WellFormedList(k, m[k])
  }

  /** The thread shown under a post, `commentsByPost[id] || []`, holds only
      that post's comments, numbered `c1, c2, …`, and only a post that exists
      can have a non-empty thread. */
  lemma ThreadBelongsToPost(posts: seq<Post>, m: CommentMap, id: string)
    requires CommentsWellFormed(posts, m)
    ensures WellFormedList(id, CommentsOf(m, id))
    ensures CommentsOf(m, id) != [] ==> HasPost(posts, id)
  {
    if id in m {
      assert HasPost(posts, id) && WellFormedList(id, m[id]);
    }
  }

  lemma WellFormedListDistinct(postId: string, cs: seq<Comment>, i: nat, j: nat)
    requires WellFormedList(postId, cs)
    requires i < j < |cs|
    ensures cs[i].id != cs[j].id
  {
    SerialIdInjective('c', i + 1, j + 1);
  }

  /** Filing a comment for an existing post under that post's id keeps every
      list well formed. */
  lemma AddCommentKeepsWellFormed(posts: seq<Post>, m: CommentMap, postId: string, c: Comment)
    requires CommentsWellFormed(posts, m)
    requires HasPost(posts, postId) && c.postId == postId
    ensures CommentsWellFormed(posts, AddComment(m, postId, c))
  {
    var r := AddComment(m, postId, c);
    var before := CommentsOf(m, postId);
    assert WellFormedList(postId, before);
    AppendKeepsWellFormed(postId, before, c);
    forall k | k in r ensures HasPost(posts, k) && WellFormedList(k, r[k]) {
      if k != postId {
        assert r[k] == CommentsOf(r, k) == CommentsOf(m, k);
      }
    }
  }

  /** Appending a comment numbered after its position and filed under the
      list's post keeps the list well formed. */
  lemma AppendKeepsWellFormed(postId: string, cs: seq<Comment>, c: Comment)
    requires WellFormedList(postId, cs) && c.postId == postId
    ensures WellFormedList(postId, cs + [c.(id := CommentId(|cs| + 1))])
  {
  }

  /** The comment lists only refer to posts, so adding a post keeps them
      well formed. */
  lemma AddPostKeepsCommentsWellFormed(posts: seq<Post>, m: CommentMap, draft: Post)
    requires CommentsWellFormed(posts, m)
    ensures CommentsWellFormed(AddPost(posts, draft), m)
  {
    var r := AddPost(posts, draft);
    forall k | k in m ensures HasPost(r, k) {
      var i :| 0 <= i < |posts| && posts[i].id == k;
      assert r[i + 1] == posts[i];
    }
  }

  // ---------------------------------------------------------------------------
  // Claps
  // ---------------------------------------------------------------------------

  predicate NoDup(s: seq<string>) {
    forall i, j :: 0 <= i < j < |s| ==> s[i] != s[j]
  }

  /** `claps.filter((x) => x !== uid)`: every occurrence of `x` goes, the
      rest keep their order and multiplicity. */
  function RemoveAll(s: seq<string>, x: string): (r: seq<string>)
    ensures x !in r
    ensures forall y :: y != x ==> multiset(r)[y] == multiset(s)[y]
    decreases |s|
  {
    if |s| == 0 then []
    else
      var rest := RemoveAll(s[1..], x);
      assert s == [s[0]] + s[1..];
      if s[0] == x then rest else [s[0]] + rest
  }

  /** Removing a value that is absent changes nothing. */
  lemma {:induction false} RemoveAllAbsent(s: seq<string>, x: string)
    requires x !in s
    ensures RemoveAll(s, x) == s
    decreases |s|
  {
    if |s| > 0 {
      RemoveAllAbsent(s[1..], x);
      assert s == [s[0]] + s[1..];
    }
  }

  /** The filter keeps a duplicate-free list duplicate-free. */
  lemma {:induction false} RemoveAllKeepsNoDup(s: seq<string>, x: string)
    requires NoDup(s)
    ensures NoDup(RemoveAll(s, x))
    decreases |s|
  {
    if |s| > 0 {
      var rest := RemoveAll(s[1..], x);
      assert NoDup(s[1..]) by {
        forall i, j | 0 <= i < j < |s| - 1 ensures s[1..][i] != s[1..][j] {
          assert s[1..][i] == s[i + 1] && s[1..][j] == s[j + 1];
        }
      }
      RemoveAllKeepsNoDup(s[1..], x);
      if s[0] != x {
        assert s[0] !in s[1..] by {
          forall j | 0 <= j < |s| - 1 ensures s[1..][j] != s[0] {
            assert s[1..][j] == s[j + 1];
          }
        }
        assert multiset(s[1..])[s[0]] == 0;
        assert s[0] !in rest by {
          assert multiset(rest)[s[0]] == multiset(s[1..])[s[0]];
        }
        var r := [s[0]] + rest;
        forall i, j | 0 <= i < j < |r| ensures r[i] != r[j] {
          if i == 0 {
            assert r[j] == rest[j - 1];
          } else {
            assert r[i] == rest[i - 1] && r[j] == rest[j - 1];
          }
        }
      }
    }
  }

  /** The clap toggle on one list: remove `uid` if present, else append it.
      Membership of `uid` flips and nobody else's claps change. */
  function ToggleClaps(claps: seq<string>, uid: string): (r: seq<string>)
    ensures uid in r <==> uid !in claps
    ensures forall y :: y != uid ==> multiset(r)[y] == multiset(claps)[y]
  {
    if uid in claps then RemoveAll(claps, uid) else claps + [uid]
  }

  /** Toggling keeps a duplicate-free list duplicate-free, and then moves the
      clap count by exactly one. */
  lemma ToggleClapsKeepsNoDup(claps: seq<string>, uid: string)
    requires NoDup(claps)
    ensures NoDup(ToggleClaps(claps, uid))
    ensures |ToggleClaps(claps, uid)| == if uid in claps then |claps| - 1 else |claps| + 1
  {
    var r := ToggleClaps(claps, uid);
    if uid in claps {
      RemoveAllKeepsNoDup(claps, uid);
      NoDupCount(claps, uid);
      assert multiset(r) == multiset(claps)[uid := 0];
    } else {
      forall i, j | 0 <= i < j < |r| ensures r[i] != r[j] {
        if j == |claps| {
          assert r[i] == claps[i];
        } else {
          assert r[i] == claps[i] && r[j] == claps[j];
        }
      }
    }
  }

  /** In a duplicate-free list every member occurs exactly once. */
  lemma {:induction false} NoDupCount(s: seq<string>, x: string)
    requires NoDup(s)
    ensures multiset(s)[x] == if x in s then 1 else 0
    decreases |s|
  {
    if |s| > 0 {
      assert s == [s[0]] + s[1..];
      assert NoDup(s[1..]) by {
        forall i, j | 0 <= i < j < |s| - 1 ensures s[1..][i] != s[1..][j] {
          assert s[1..][i] == s[i + 1] && s[1..][j] == s[j + 1];
        }
      }
      NoDupCount(s[1..], x);
      if s[0] == x {
        assert x !in s[1..] by {
          forall j | 0 <= j < |s| - 1 ensures s[1..][j] != x {
            assert s[1..][j] == s[j + 1];
          }
        }
      }
    }
  }

  /** Toggling twice gives back the same claps: the very same list when
      `uid` had not clapped, the same collection (with `uid` moved to the
      end) when it had. */
  lemma ToggleClapsTwice(claps: seq<string>, uid: string)
    requires NoDup(claps)
    ensures multiset(ToggleClaps(ToggleClaps(claps, uid), uid)) == multiset(claps)
    ensures uid !in claps ==> ToggleClaps(ToggleClaps(claps, uid), uid) == claps
  {
    var once := ToggleClaps(claps, uid);
    var twice := ToggleClaps(once, uid);
    NoDupCount(claps, uid);
    ToggleClapsKeepsNoDup(claps, uid);
    ToggleClapsKeepsNoDup(once, uid);
    NoDupCount(twice, uid);
    if uid !in claps {
      RemoveAllFromAppend(claps, uid);
    }
  }

  lemma RemoveAllFromAppend(s: seq<string>, x: string)
    requires x !in s
    ensures RemoveAll(s + [x], x) == s
  {
    var r := RemoveAll(s + [x], x);
    RemoveAllSplit(s, [x], x);
    RemoveAllAbsent(s, x);
    assert RemoveAll([x], x) == [];
  }

  lemma {:induction false} RemoveAllSplit(a: seq<string>, b: seq<string>, x: string)
    ensures RemoveAll(a + b, x) == RemoveAll(a, x) + RemoveAll(b, x)
    decreases |a|
  {
    if |a| == 0 {
      assert a + b == b;
    } else {
      assert (a + b)[1..] == a[1..] + b;
      RemoveAllSplit(a[1..], b, x);
    }
  }

  // ---------------------------------------------------------------------------
  // toggleClap
  // ---------------------------------------------------------------------------

  /** `toggleClap`: every post with the id gets its claps toggled for `uid`;
      the list keeps its length and order and nothing but claps changes. */
  function ToggleClap(posts: seq<Post>, postId: string, uid: string): (r: seq<Post>)
    ensures |r| == |posts|
    ensures forall i :: 0 <= i < |posts| ==> r[i].(claps := posts[i].claps) == posts[i]
    ensures forall i :: 0 <= i < |posts| && posts[i].id != postId ==> r[i] == posts[i]
    ensures forall i :: 0 <= i < |posts| && posts[i].id == postId ==>
              (uid in r[i].claps <==> uid !in posts[i].claps)
    ensures forall i, y :: 0 <= i < |posts| && y != uid ==>
              multiset(r[i].claps)[y] == multiset(posts[i].claps)[y]
  {
    seq(|posts|, i requires 0 <= i < |posts| =>
      if posts[i].id != postId then posts[i]
      else posts[i].(claps := ToggleClaps(posts[i].claps, uid)))
  }

  /** Every post's claps are duplicate-free. */
  predicate ClapsNoDup(posts: seq<Post>) {
    forall i :: 0 <= i < |posts| ==> NoDup(posts[i].claps)
  }

  lemma ToggleClapKeepsNoDup(posts: seq<Post>, postId: string, uid: string)
    requires ClapsNoDup(posts)
    ensures ClapsNoDup(ToggleClap(posts, postId, uid))
  {
    var r := ToggleClap(posts, postId, uid);
    forall i | 0 <= i < |r| ensures NoDup(r[i].claps) {
      if posts[i].id == postId {
        ToggleClapsKeepsNoDup(posts[i].claps, uid);
      }
    }
  }

  /** Toggling the same clap twice restores every post; only the position of
      `uid` inside a list it was already in can differ. */
  lemma ToggleClapTwice(posts: seq<Post>, postId: string, uid: string)
    requires ClapsNoDup(posts)
    ensures var r := ToggleClap(ToggleClap(posts, postId, uid), postId, uid);
            && |r| == |posts|
            && forall i :: 0 <= i < |posts| ==>
                 && r[i].(claps := posts[i].claps) == posts[i]
                 && multiset(r[i].claps) == multiset(posts[i].claps)
                 && (uid !in posts[i].claps ==> r[i] == posts[i])
  {
    var once := ToggleClap(posts, postId, uid);
    var r := ToggleClap(once, postId, uid);
    forall i | 0 <= i < |posts|
      ensures multiset(r[i].claps) == multiset(posts[i].claps)
      ensures uid !in posts[i].claps ==> r[i] == posts[i]
    {
      if posts[i].id == postId {
        ToggleClapsTwice(posts[i].claps, uid);
        assert r[i].claps == ToggleClaps(ToggleClaps(posts[i].claps, uid), uid);
      }
    }
  }

  // ---------------------------------------------------------------------------
  // Read times
  // ---------------------------------------------------------------------------

  /** Every post's stored read time is the estimate for its content. */
  predicate ReadTimesCurrent(posts: seq<Post>) {
    forall i :: 0 <= i < |posts| ==> posts[i].estimatedReadTime == EstimateReadTime(posts[i].content)
  }

  /** `addPost` keeps read times current when the draft's is. */
  lemma AddPostKeepsReadTimes(posts: seq<Post>, draft: Post)
    requires ReadTimesCurrent(posts)
    requires draft.estimatedReadTime == EstimateReadTime(draft.content)
    ensures ReadTimesCurrent(AddPost(posts, draft))
  {
    var r := AddPost(posts, draft);
    forall i | 0 <= i < |r| ensures r[i].estimatedReadTime == EstimateReadTime(r[i].content) {
      if i > 0 {
        assert r[i] == r[1..][i - 1] == posts[i - 1];
      }
    }
  }

  /** Clapping touches neither content nor read time. */
  lemma ToggleClapKeepsReadTimes(posts: seq<Post>, postId: string, uid: string)
    requires ReadTimesCurrent(posts)
    ensures ReadTimesCurrent(ToggleClap(posts, postId, uid))
  {
    var r := ToggleClap(posts, postId, uid);
    forall i | 0 <= i < |r| ensures r[i].estimatedReadTime == EstimateReadTime(r[i].content) {
      assert r[i].(claps := posts[i].claps) == posts[i];
    }
  }

  // ---------------------------------------------------------------------------
  // Search: the `filtered` memo
  // ---------------------------------------------------------------------------

  /** `r` is `s` with some elements dropped and the rest in their order. */
  predicate IsSubsequence<T(==)>(r: seq<T>, s: seq<T>)
    decreases |s|
  {
    |r| == 0 || (|s| > 0 && ((r[0] == s[0] && IsSubsequence(r[1..], s[1..])) || IsSubsequence(r, s[1..])))
  }

  lemma {:induction false} SubsequenceReflexive<T>(s: seq<T>)
    ensures IsSubsequence(s, s)
    decreases |s|
  {
    if |s| > 0 {
      SubsequenceReflexive(s[1..]);
    }
  }

  /** A post matches when its lower-cased title or lower-cased stripped
      content contains the lower-cased query; every post matches the empty
      query. */
  predicate Matches(p: Post, query: string)
    ensures query == "" ==> Matches(p, query)
  {
    var q := LowerStr(query);
    Contains(LowerStr(p.title), q) || Contains(LowerStr(StripHtml(p.content)), q)
  }

  /** A query matches the posts its lower-cased form matches. */
  lemma MatchesIgnoresCase(p: Post, query: string)
    ensures Matches(p, query) <==> Matches(p, LowerStr(query))
  {
    LowerStrIdempotent(query);
  }

  /** `posts.filter(matches)`: the kept posts in their order. */
  function FilterMatching(posts: seq<Post>, query: string): (r: seq<Post>)
    ensures IsSubsequence(r, posts)
    decreases |posts|
  {
    if |posts| == 0 then []
    else
      var rest := FilterMatching(posts[1..], query);
      if Matches(posts[0], query) then
        assert ([posts[0]] + rest)[1..] == rest;
        [posts[0]] + rest
      else rest
  }

  /** The filter keeps a post exactly when it matches, and keeps every copy
      of it. */
  lemma {:induction false} FilterMatchingKeeps(posts: seq<Post>, query: string)
    ensures forall p :: p in FilterMatching(posts, query) <==> p in posts && Matches(p, query)
    ensures forall p :: multiset(FilterMatching(posts, query))[p] ==
                        if Matches(p, query) then multiset(posts)[p] else 0
    decreases |posts|
  {
    if |posts| > 0 {
      FilterMatchingKeeps(posts[1..], query);
      assert posts == [posts[0]] + posts[1..];
      assert multiset(posts) == multiset{posts[0]} + multiset(posts[1..]);
      if Matches(posts[0], query) {
        var rest := FilterMatching(posts[1..], query);
        assert multiset([posts[0]] + rest) == multiset{posts[0]} + multiset(rest);
      }
    }
  }

  /** The `filtered` memo: the posts themselves for an empty query, else the
      matching posts in their order. */
  function Search(posts: seq<Post>, query: string): (r: seq<Post>)
    ensures query == "" ==> r == posts
    ensures IsSubsequence(r, posts)
    ensures forall p :: p in r <==> p in posts && (query == "" || Matches(p, query))
    ensures forall p :: multiset(r)[p] ==
                        if query == "" || Matches(p, query) then multiset(posts)[p] else 0
  {
    if query == "" then
      SubsequenceReflexive(posts);
      posts
    else
      FilterMatchingKeeps(posts, query);
      FilterMatching(posts, query)
  }

  /** The empty query is contained in every string, so the shortcut for it
      returns what the filter would. */
  lemma {:induction false} SearchShortcutAgrees(posts: seq<Post>)
    ensures Search(posts, "") == FilterMatching(posts, "")
    decreases |posts|
  {
    if |posts| > 0 {
      SearchShortcutAgrees(posts[1..]);
      assert Contains(LowerStr(posts[0].title), LowerStr(""));
      assert posts == [posts[0]] + posts[1..];
    }
  }

  /** The search ignores ASCII case: queries that lower-case alike give the
      same posts. */
  lemma {:induction false} SearchIgnoresCase(posts: seq<Post>, q1: string, q2: string)
    requires q1 != "" && q2 != "" && LowerStr(q1) == LowerStr(q2)
    ensures Search(posts, q1) == Search(posts, q2)
    decreases |posts|
  {
    if |posts| > 0 {
      SearchIgnoresCase(posts[1..], q1, q2);
    }
  }

  /** A non-empty query finds the same posts as its lower-cased form: case
      never decides whether a post is listed. */
  lemma SearchCaseInsensitive(posts: seq<Post>, query: string)
    ensures query != "" ==> Search(posts, query) == Search(posts, LowerStr(query))
  {
    if query != "" {
      LowerStrIdempotent(query);
      SearchIgnoresCase(posts, query, LowerStr(query));
    }
  }

  /** Every post the search lists is one of the posts. */
  lemma SearchListsHeldPosts(posts: seq<Post>, query: string, i: nat)
    requires i < |Search(posts, query)|
    ensures HasPost(posts, Search(posts, query)[i].id)
  {
    var p := Search(posts, query)[i];
    assert p in posts;
    var k :| 0 <= k < |posts| && posts[k] == p;
  }

  /** Every post the search lists can be looked up by its id. */
  lemma SearchResultsResolve(posts: seq<Post>, query: string, i: nat)
    requires DistinctIds(posts)
    requires i < |Search(posts, query)|
    ensures FindPost(posts, Search(posts, query)[i].id) == Some(Search(posts, query)[i])
  {
    var p := Search(posts, query)[i];
    assert p in posts;
    var k :| 0 <= k < |posts| && posts[k] == p;
    FindPostUnique(posts, k);
  }
}

=== FILE: strings.dfy ===
/** Character and string primitives that the JavaScript code gets from the
    language runtime: the `\s` whitespace class, `String.prototype.trim`,
    an ASCII `toLowerCase`, and `String.prototype.includes`. */
module Strings {

  /** The ECMAScript WhiteSpace and LineTerminator characters: the set matched
      by the regular-expression class `\s` and removed by `trim`. */
  predicate IsSpace(c: char) {
    || c == ' ' || c == '\t' || c == '\n' || c == '\U{B}' || c == '\U{C}' || c == '\r'
    || c == '\U{A0}' || c == '\U{1680}' || ('\U{2000}' <= c <= '\U{200A}')
    || c == '\U{2028}' || c == '\U{2029}' || c == '\U{202F}' || c == '\U{205F}'
    || c == '\U{3000}' || c == '\U{FEFF}'
  }

  predicate AllSpace(s: string) {
    forall i :: 0 <= i < |s| ==> IsSpace(s[i])
  }

  /** No whitespace at either end. */
  predicate IsTrimmed(s: string) {
    |s| == 0 || (!IsSpace(s[0]) && !IsSpace(s[|s| - 1]))
  }

  // ---------------------------------------------------------------------------
  // trim
  // ---------------------------------------------------------------------------

  /** Drops the leading whitespace: the result is the longest suffix of `s`
      that does not start with whitespace. */
  function TrimStart(s: string): (r: string)
    ensures |r| <= |s| && r == s[|s| - |r|..]
    ensures AllSpace(s[..|s| - |r|])
    ensures |r| > 0 ==> !IsSpace(r[0])
    decreases |s|
  {
    if |s| > 0 && IsSpace(s[0]) then TrimStart(s[1..]) else s
  }

  /** Drops the trailing whitespace: the result is the longest prefix of `s`
      that does not end with whitespace. */
  function TrimEnd(s: string): (r: string)
    ensures |r| <= |s| && r == s[..|r|]
    ensures AllSpace(s[|r|..])
    ensures |r| > 0 ==> !IsSpace(r[|r| - 1])
    decreases |s|
  {
    if |s| > 0 && IsSpace(s[|s| - 1]) then TrimEnd(s[..|s| - 1]) else s
  }

  /** `String.prototype.trim`. */
  function Trim(s: string): (r: string)
    ensures IsTrimmed(r)
    ensures |r| <= |s|
  {
    TrimEnd(TrimStart(s))
  }

  /** `Trim(s)` is a slice of `s` and only whitespace lies outside it. */
  lemma TrimIsSlice(s: string) returns (a: nat)
    ensures a + |Trim(s)| <= |s| && Trim(s) == s[a..a + |Trim(s)|]
    ensures AllSpace(s[..a]) && AllSpace(s[a + |Trim(s)|..])
  {
    var t := TrimStart(s);
    a := |s| - |t|;
    assert Trim(s) == TrimEnd(t);
    MiddleSlice(s, t, Trim(s), a);
  }

  /** A prefix `r` of the suffix `t` of `s` that starts at `a` is the slice of
      `s` at `a`, and whatever surrounds `r` in `t` surrounds it in `s`. */
  lemma MiddleSlice(s: string, t: string, r: string, a: nat)
    requires a <= |s| && t == s[a..] && |r| <= |t| && r == t[..|r|]
    requires AllSpace(s[..a]) && AllSpace(t[|r|..])
    ensures a + |r| <= |s| && r == s[a..a + |r|]
    ensures AllSpace(s[..a]) && AllSpace(s[a + |r|..])
  {
    SliceOfSuffix(s, a, |r|);
  }

  /** Slicing a suffix is slicing the whole string at shifted indices. */
  lemma SliceOfSuffix<T>(s: seq<T>, a: nat, n: nat)
    requires a + n <= |s|
    ensures s[a..][..n] == s[a..a + n]
    ensures s[a..][n..] == s[a + n..]
  {
  }

  /** A string trims to nothing exactly when it is all whitespace; this is
      how the source's `!x.trim()` tests read. */
  lemma TrimEmptyIffAllSpace(s: string)
    ensures Trim(s) == "" <==> AllSpace(s)
  {
    var a := TrimIsSlice(s);
    if Trim(s) == "" {
      forall i | 0 <= i < |s| ensures IsSpace(s[i]) {
        if i < a {
          assert s[..a][i] == s[i];
        } else {
          assert s[a..][i - a] == s[i];
        }
      }
    } else {
      var t := TrimStart(s);
      assert !IsSpace(t[0]);
      assert t[0] == s[|s| - |t|];
    }
  }

  /** Trimming an already trimmed string changes nothing. */
  lemma TrimOfTrimmed(s: string)
    requires IsTrimmed(s)
    ensures Trim(s) == s
  {
    assert TrimStart(s) == s;
    assert TrimEnd(s) == s;
  }

  // ---------------------------------------------------------------------------
  // toLowerCase
  // ---------------------------------------------------------------------------

  /** ASCII lower-casing of one character. */
  function Lower(c: char): char {
    if IsUpper(c) then (c as int - 'A' as int + 'a' as int) as char else c
  }

  predicate IsUpper(c: char) {
    'A' <= c <= 'Z'
  }

  /** `toLowerCase`: each capital letter becomes its small letter, 32 code
      points further on, every other character is kept, and no capital
      letter is left. */
  function LowerStr(s: string): (r: string)
    ensures |r| == |s|
    ensures forall i :: 0 <= i < |s| && IsUpper(s[i]) ==> r[i] as int == s[i] as int + 32
    ensures forall i :: 0 <= i < |s| && !IsUpper(s[i]) ==> r[i] == s[i]
    ensures forall i :: 0 <= i < |r| ==> !IsUpper(r[i])
  {
    seq(|s|, i requires 0 <= i < |s| => Lower(s[i]))
  }

  /** Lower-casing twice is lower-casing once. */
  lemma LowerStrIdempotent(s: string)
    ensures LowerStr(LowerStr(s)) == LowerStr(s)
  {
  }

  // ---------------------------------------------------------------------------
  // includes
  // ---------------------------------------------------------------------------

  predicate IsPrefix(w: string, s: string) {
    |w| <= |s| && s[..|w|] == w
  }

  /** `s.includes(w)`: some suffix of `s` starts with `w`. */
  predicate Contains(s: string, w: string)
    decreases |s|
  {
    IsPrefix(w, s) || (|s| > 0 && Contains(s[1..], w))
  }

  predicate OccursAt(s: string, w: string, i: int) {
    0 <= i && i + |w| <= |s| && s[i..i + |w|] == w
  }

  /** An occurrence at any index makes `Contains` true. */
  lemma {:induction false} OccursImpliesContains(s: string, w: string, i: int)
    requires OccursAt(s, w, i)
    ensures Contains(s, w)
    decreases i
  {
    if i == 0 {
      assert s[..|w|] == s[0..0 + |w|];
    } else {
      assert s[1..][i - 1..i - 1 + |w|] == s[i..i + |w|];
      OccursImpliesContains(s[1..], w, i - 1);
    }
  }

  /** `Contains` is witnessed by an index at which `w` occurs. */
  lemma {:induction false} ContainsGivesOccurrence(s: string, w: string) returns (i: nat)
    requires Contains(s, w)
    ensures OccursAt(s, w, i)
    decreases |s|
  {
    if IsPrefix(w, s) {
      i := 0;
      assert s[0..0 + |w|] == s[..|w|];
    } else {
      var j := ContainsGivesOccurrence(s[1..], w);
      assert s[1..][j..j + |w|] == s[j + 1..j + 1 + |w|];
      i := j + 1;
    }
  }

  /** The recursive definition agrees with the positional one: `s` contains
      `w` exactly when `w` occurs at some index of `s`. */
  lemma ContainsIffOccurs(s: string, w: string)
    ensures Contains(s, w) <==> exists i :: OccursAt(s, w, i)
  {
    if Contains(s, w) {
      var i := ContainsGivesOccurrence(s, w);
    }
    forall i | OccursAt(s, w, i) ensures Contains(s, w) {
      OccursImpliesContains(s, w, i);
    }
  }

  /** What a slice contains, the whole string contains. */
  lemma ContainsOfSlice(s: string, a: nat, b: nat, w: string)
    requires a <= b <= |s|
    requires Contains(s[a..b], w)
    ensures Contains(s, w)
  {
    var i := ContainsGivesOccurrence(s[a..b], w);
    var t := s[a..b];
    forall k | 0 <= k < |w| ensures s[a + i + k] == w[k] {
      assert t[i + k] == w[k];
    }
    assert s[a + i..a + i + |w|] == w;
    OccursImpliesContains(s, w, a + i);
  }

  /** Prepending one character that does not start `w` cannot create an
      occurrence of `w`. */
  lemma ContainsCons(c: char, s: string, w: string)
    requires |w| > 0 && w[0] != c
    ensures Contains([c] + s, w) <==> Contains(s, w)
  {
    assert ([c] + s)[1..] == s;
  }
}
